=== FILE: README.md ===
# Subscription app core, modelled in Dafny

This project models the server-side core of a Next.js subscription app for
guided practice videos. Users sign in through Auth0 via NextAuth. Their
profile and billing state live in one Sanity "user" document. Billing is
done by Stripe.

The model covers these parts of the app:

- **Stripe webhook** (`StripeWebhook`). It reduces a verified billing event
  to a tuple: customer id, status, period end and cancellation flag. It then
  finds the user that carries the customer id and writes the tuple onto that
  record. The provider's status is written exactly as received; there is no
  mapping step.
- **Checkout route** (`Checkout`). It resolves the plan and finds the user
  by email. On first use it creates and persists a Stripe customer, which is
  set once. It then opens a subscription checkout session.
- **Billing portal route** (`ManageSubscription`).
- **Onboarding server action and form** (`OnboardingActions`,
  `OnboardingPage`, `JsNumbers`). The action finds or creates the record,
  validates the form and patches the profile. The form side covers the goal
  toggle, the year and month tables, the disabled submit button and the
  handling of the action's result. `JsNumbers` models `String(n)` and
  `parseInt`.
- **Routing gates** (`Middleware`, `AuthConfig`, `AuthGuard`). These are the
  edge middleware's redirect ladder, the `authorized` callback and the
  `AuthGuard` server component, which no page mounts.
- **NextAuth callbacks** (`Auth`, `AuthOptions`). These cover both
  configurations: find-or-create by email, and find-or-create by Auth0 id.
- **Premium gating in the UI** (`BottomNav`, `JourneyRow`).
- **Cache tags of `sanityFetch`** (`SanityClient`).

The user document store (`UserStore`) is modelled as a map from
store-assigned ids to records. A `*[...][0]` query returns the lowest
matching id. Failures of the store and of Stripe are explicit inputs:

- `Faults` says whether a query, a `create` or a `patch` throws.
- An `Option` reply stands for a Stripe call; `None` means the call threw.

Each handler therefore has its 500 path.

`CrossChecks` relates the modules to each other:

- The navigation unlocks only for the status `"premium"`. The webhook only
  ever writes Stripe's own status words. So no billing event can unlock the
  premium links.
- The page guard and the middleware agree on the five exact protected app
  paths. Below `/practice` they differ: an anonymous request passes the
  middleware but the guard would send it to "/". No page of the app mounts
  the guard; `src/app/(app)/layout.js` renders the navigation without it.
- A customer id persisted by checkout is what the webhook and the billing
  portal look up.
- Every result of the onboarding action either leaves the form following
  the redirect or unlocks it with an error shown.

Behaviours of the code worth noting:

- The webhook writes the raw Stripe status. It maps nothing to
  application-level statuses such as `"premium"`.
- When no record carries the customer id, the webhook acknowledges with 200
  and no write; it does not ask for a retry.
- A completed checkout session whose `subscription` is null makes the
  handler throw (500). It is not skipped as "not actionable".
- A deletion event writes whatever status its payload carries.
- The lookups by email in the billing-portal route and the `jwt` callback use
  query constants (`GET_STRIPE_ID_QUERY`, `GET_USER_BY_EMAIL_QUERY`) that
  `src/lib/sanity.queries.js` does not define. The model reads them as "the
  record with this email", projected to its customer id in the portal route.

## Model

| member | source | states |
|---|---|---|
| Common.BaseUrl | src/app/api/checkout/route.js:84 | The redirect base is NEXTAUTH_URL when set and non-empty, else NEXT_PUBLIC_APP_URL, else the local development URL, and never empty |
| Common.InternalError | src/app/api/checkout/route.js:112-117 | A caught exception answers 500. In development mode the body carries the exception's own message; otherwise it is exactly "Internal Server Error" |
| UserStore.Find | src/lib/sanity.queries.js:6-11 | A `[0]` lookup returns a document that matches, and no lower id matches; it returns nothing exactly when no document matches |
| UserStore.Create | src/lib/auth.js:33-39 | A created document gets an id no existing document has; every other document is unchanged |
| UserStore.Put | src/app/api/webhooks/stripe/route.js:86-93 | A patch replaces one existing document and keeps the set of ids |
| UserStore.FindStable | src/lib/sanity.queries.js:6-11 | A write that keeps every document's match status leaves the lookup's answer unchanged |
| UserStore.FindAfterCreate | src/lib/auth.js:24-41 | Once a lookup found nothing and a matching document is created, the lookup finds exactly the new document |
| StripeWebhook.Classify | src/app/api/webhooks/stripe/route.js:35-77 | Only the five handled event types yield a tuple. Subscription events take the payload's customer, status, period end and cancel flag. Checkout sessions (subscription mode with a customer) and invoices (with subscription and customer) take the retrieved subscription, and a missing subscription throws. Every other case keeps the empty initial tuple |
| StripeWebhook.CancelPending | src/app/api/webhooks/stripe/route.js:46 | A cancellation counts as pending when the flag is set or `cancel_at` is anything but null, an absent `cancel_at` included. It is not pending exactly when the flag is unset and `cancel_at` is null |
| StripeWebhook.ToISOString | src/app/api/webhooks/stripe/route.js:10-13 | A falsy timestamp gives null. Otherwise the instant is the timestamp in seconds scaled to whole milliseconds, and an instant outside the `Date` range of ±8.64e15 ms throws a RangeError |
| StripeWebhook.SetSubscriptionFields | src/app/api/webhooks/stripe/route.js:88-92 | The patch sets status and cancel flag, sets the period end only when one is given, and leaves every other field as it was |
| StripeWebhook.Post | src/app/api/webhooks/stripe/route.js:15-103 | A bad signature gives 400. An unhandled type, an empty status or customer id, or an unknown customer gives 200 with no write. Anything thrown gives 500 with no write: a missing subscription to retrieve, a failed lookup, an out-of-range period end or a failed patch. A write happens exactly when the event is verified, actionable, its owner is found and nothing throws. The write goes to the record owning the customer id and carries the raw status |
| StripeWebhook.CheckoutActionableOnlyForSubscriptions | src/app/api/webhooks/stripe/route.js:36-49 | A checkout session leads to a lookup only in subscription mode with a truthy customer, and it looks up that customer |
| StripeWebhook.SubscriptionRefFormIrrelevant | src/app/api/webhooks/stripe/route.js:40 | A session carrying the subscription id and one carrying the expanded object are classified alike |
| StripeWebhook.DeletionKeepsPayloadStatus | src/app/api/webhooks/stripe/route.js:63-73 | A deletion writes the payload's status rather than a fixed "canceled", exactly as an update would |
| StripeWebhook.SetSubscriptionFieldsIdempotent | src/app/api/webhooks/stripe/route.js:88-92 | Applying the same patch twice equals applying it once |
| StripeWebhook.RedeliveryIdempotent | src/app/api/webhooks/stripe/route.js:79-97 | Delivering the same event again gives the same response and store and writes the same record |
| StripeWebhook.LastWriteWins | src/app/api/webhooks/stripe/route.js:83-93 | Of two writes for one customer, the second's status and cancel flag survive. The period end is the second's unless that is falsy, then the first's, then the original |
| Middleware.Decide | src/middleware.js:26-82 | Anonymous: exactly the protected paths and onboarding go to "/". Signed in without a record: "/". Not onboarded: everything except onboarding goes to onboarding. Onboarded: "/" and onboarding go to "/home". Everything else passes |
| Middleware.Route | src/middleware.js:86-97 | Paths outside the matcher always pass; inside it the ladder decides |
| Middleware.DecisionIgnoresSubscription | src/middleware.js:46-61 | The fetched subscription status never affects the decision |
| Middleware.AnonymousPracticePagePasses | src/middleware.js:32-39 | A practice page is in the matcher, yet an anonymous request for it passes, because matching against the path lists is exact |
| Middleware.SelfRedirectWithoutRecord | src/middleware.js:55-59 | As written, a signed-in user without a record who requests "/" is redirected to "/" |
| Middleware.SelfRedirectOnlyWithoutRecordOnLanding | src/middleware.js:32-82 | That is the only case in which the ladder redirects a request to the path it asked for |
| Middleware.DecideCorrected | src/middleware.js:55-59 | The corrected ladder never redirects to the requested path, and agrees with the written one on every other request |
| AuthConfig.Authorized | src/lib/auth.config.js:19-39 | Refuses exactly an anonymous request under a protected section. Redirects exactly a signed-in request for "/" to "/home". Allows everything else |
| AuthConfig.PrefixProtection | src/lib/auth.config.js:21-25 | Prefix matching protects every path below "/home" and "/practice", even "/homework". "/onboarding" and "/all-videos" stay open to anonymous visitors |
| AuthGuard.Guard | src/components/AuthGuard.js:20-50 | The children render exactly for a signed-in user whose record exists with onboarding complete. Otherwise the user goes to "/", or to onboarding when the record exists but is incomplete |
| AuthGuard.GuardIgnoresSubscription | src/components/AuthGuard.js:34-46 | Only the onboarding flag of the record is consulted |
| JsNumbers.ParseInt | src/app/onboarding/actions.js:56-57 | Blank text, and text starting with neither a sign nor a digit, read as NaN. A negative result needs a leading minus sign |
| JsNumbers.IntToString | src/app/onboarding/page.js:136-155 | For a magnitude below 10^21, a number as option text is a minus sign exactly for a negative number, then decimal digits with no leading zero except for zero itself |
| JsNumbers.ParseIntOfDigits | src/app/onboarding/actions.js:56-57 | `parseInt` of a run of decimal digits is its value |
| JsNumbers.ParseIntOfMinus | src/app/onboarding/actions.js:56-57 | Behind a leading minus sign, `parseInt` gives the negation of the digits read right after the minus, and NaN when no digit follows it. White space or a second sign after the minus gives NaN |
| JsNumbers.ParseDigitsOfDigits | src/app/onboarding/actions.js:56-57 | The digit reader takes a whole run of decimal digits as its value |
| JsNumbers.ParseIntOfMinusValue | src/app/onboarding/actions.js:56-57 | When the digits right after a minus sign read as v, `parseInt` of the whole text is -v |
| JsNumbers.ParseIntRoundTrip | src/app/onboarding/actions.js:56-57 | `parseInt(String(n), 10) == n` for every integer of magnitude below 10^21, where `String` writes plain decimal; every month and year value lies in that range |
| Checkout.PlanLookup | src/app/api/checkout/route.js:12-45 | Finds a plan exactly for the three configured prices and for every inherited object property. The first price has a five-day trial and the other two have none |
| Checkout.ConfiguredPlan | src/app/api/checkout/route.js:12-22 | Finds a plan exactly for the three configured prices, the same plan as the configuration holds |
| Checkout.SessionFor | src/app/api/checkout/route.js:87-108 | The session is a subscription for the given customer and one unit of the price. It has a trial exactly when the trial days are positive. Success returns to the account page with the session id placeholder, and cancelling returns to the subscribe page |
| Checkout.TrialDays | src/app/api/checkout/route.js:51 | A plan without trial days gets zero; a plan's own number of trial days, zero included, is taken unchanged |
| Checkout.Post | src/app/api/checkout/route.js:31-119 | No session email gives 401 before anything else. 400 comes exactly for a missing or unknown price, and 404 with "User record not found" exactly for a missing record; both leave the store alone. A customer is created only for a record without one, and the only write stores it on that record. An existing customer id is reused. 200 comes exactly when the session creation call succeeds, and it carries the URL Stripe returned. A valid checkout for a found record opens a session. A new customer is created with the record's email and id, and the session uses the new customer's id. A malformed body, a failed lookup, a failed customer creation or a failed write gives 500 with nothing stored. A failed session creation also gives 500 |
| Checkout.TrialOnlyForFirstPrice | src/app/api/checkout/route.js:12-51 | Trial days are five for the first price and zero for every other accepted price id |
| Checkout.SecondCheckoutReusesCustomer | src/app/api/checkout/route.js:64-81 | After a checkout created and stored a customer, the next checkout creates none, writes nothing and uses that customer |
| Checkout.InheritedKeyPassesPlanCheck | src/app/api/checkout/route.js:45-49 | As written, the price id "constructor", which is not configured, gets past the 400 check |
| Checkout.PostCorrected | src/app/api/checkout/route.js:45-49 | With only the configuration's own entries, 400 comes exactly for a missing or unconfigured price. A session is opened only for a configured price, and on a configured price the handler behaves as written |
| ManageSubscription.CustomerIdFor | src/app/api/manage-subscription/route.js:23-27 | The customer id is that of the record with the email, or nothing when there is no such record |
| ManageSubscription.Post | src/app/api/manage-subscription/route.js:11-52 | No email gives 401. 404 comes exactly when the record has no customer id. The portal is opened exactly for the stored customer, returning to the account page. 200 carries the portal URL. A failed lookup gives 500 with no portal, and a failed portal creation gives 500 too. The store is never written |
| OnboardingActions.Complete | src/app/onboarding/actions.js:45-48 | The form passes exactly when name, month and year are non-empty and at least one goal is given. An empty string or an empty goal list fails |
| OnboardingActions.ValidateAndPatch | src/app/onboarding/actions.js:45-68 | An incomplete form returns the missing-fields error and a failed patch the save error, both with no write. Otherwise the user's record becomes exactly its profile patch: the five profile fields change and its billing fields are kept. Every other record is unchanged |
| OnboardingActions.NewUser | src/app/onboarding/actions.js:28-34 | A first-time record carries the email, the given name and the onboarded flag. It has no profile, no subscription status, no Stripe customer, no Auth0 id and no period fields |
| OnboardingActions.ProfilePatch | src/app/onboarding/actions.js:52-61 | The patch stores the name, the parsed month and year, the goals and the onboarded flag, and nothing else changes |
| OnboardingActions.CompleteOnboarding | src/app/onboarding/actions.js:9-72 | No session: an error with no write. Already onboarded: home with no write. A first-time user's record is created as onboarded before validation. Validation or patch failure returns an error with no profile written. A failed query or creation escapes the action with no write. A first-time record is exactly the new-user record, named from the form or else from the session, and a rejected form leaves it so. For a user still to be onboarded, the form decides: an incomplete form gives the missing-fields error, a failed patch the save error, and otherwise the user goes home. Their record is then exactly the profile patch of what it was, so its billing fields are kept, and every other record is unchanged |
| OnboardingActions.RejectedFirstSubmissionIsFinal | src/app/onboarding/actions.js:26-48 | A first submission that fails validation leaves an onboarded record with no profile, and every later submission is sent home without writing one |
| OnboardingPage.Remove | src/app/onboarding/page.js:51 | Filtering removes every occurrence of the goal and keeps every other goal |
| OnboardingPage.ToggleGoal | src/app/onboarding/page.js:47-56 | A click selects an unselected goal at the end, deselects a selected one, and leaves the other goals selected as they were |
| OnboardingPage.ToggleKeepsOthers | src/app/onboarding/page.js:47-56 | Ignoring the clicked goal, the list is the same before and after, order included |
| OnboardingPage.ToggleTwiceRestores | src/app/onboarding/page.js:47-56 | Selecting a goal and clicking it again restores the previous list |
| OnboardingPage.ToggleKeepsNoDuplicates | src/app/onboarding/page.js:47-56 | The selected goals stay distinct |
| OnboardingPage.Years | src/app/onboarding/page.js:21-22 | A hundred years, strictly decreasing one by one, starting eighteen years before the current year |
| OnboardingPage.YearsAreAdult | src/app/onboarding/page.js:22 | Every year offered makes the user between 18 and 117 years old in the current year |
| OnboardingPage.MonthsInOrder | src/app/onboarding/page.js:23-30 | Twelve months valued 1 to 12 in calendar order |
| OnboardingPage.SelectedDateRoundTrip | src/app/onboarding/page.js:136-156 | Every month and year option, sent as text and parsed by the action, is read back as its own number |
| OnboardingPage.SubmitDisabled | src/app/onboarding/page.js:184 | The button is disabled while loading and while no goal is selected, and enabled otherwise |
| OnboardingPage.AfterSubmit | src/app/onboarding/page.js:58-95 | A non-empty returned error is shown and unlocks the form, and any other exception shows the generic message. The form stays loading only for the redirect or an empty error |
| Auth.NewFreeUser | src/lib/auth.js:33-38 | A first sign-in creates a free user with the identity's name and email and no customer id |
| Auth.Jwt | src/lib/auth.js:22-44 | Outside sign-in the token is untouched. At sign-in an existing record's id and status go into the token. Otherwise exactly one free record is created and the token carries it |
| Auth.Session | src/lib/auth.js:45-51 | The session takes the token's id and status only when the token has an id |
| Auth.SignInFindOrCreate | src/lib/auth.js:23-41 | After a sign-in the user has a record whose id is in the token, and signing in again changes nothing |
| Auth.SignInReachesSession | src/lib/auth.js:22-51 | The session built after a sign-in names the user's record and carries the status stored on it |
| AuthOptions.NewAuth0User | src/lib/authOptions.js:35-40 | The created record carries the Auth0 id and email, and the user's name, falling back to the nickname |
| AuthOptions.SignIn | src/lib/authOptions.js:26-45 | Sign-in is always allowed. A record is created exactly for the auth0 provider when no record has the Auth0 id |
| AuthOptions.Jwt | src/lib/authOptions.js:48-53 | The token takes the user's Auth0 id when a user is passed and is otherwise unchanged |
| AuthOptions.Session | src/lib/authOptions.js:56-59 | The session always takes the token's Auth0 id and nothing else changes |
| AuthOptions.SignInIdempotent | src/lib/authOptions.js:27-43 | A second sign-in after the first creates nothing more |
| AuthOptions.SessionCarriesSignInId | src/lib/authOptions.js:26-59 | The session after an auth0 sign-in carries the user's Auth0 id, and a record with that id exists |
| BottomNav.NavLinks | src/components/Navigation/BottomNav.js:19-53 | Four links: Home, All Videos, Journeys and Account. The two content links are locked and lead to the subscribe page exactly when the status is not "premium" |
| BottomNav.IsPremium | src/components/Navigation/BottomNav.js:21 | Only the exact, case-sensitive status "premium" is premium; a missing status and every other word are free |
| BottomNav.IsActive | src/components/Navigation/BottomNav.js:59 | Matching is exact: a link is highlighted on its own path and on no other, so a page below that path does not highlight it |
| BottomNav.ActiveLinkUnique | src/components/Navigation/BottomNav.js:58-59 | At most one link is highlighted on any page, and each link is highlighted on its own page |
| JourneyRow.Render | src/components/JourneyRow.js:5-24 | Nothing renders for missing or empty journeys. Otherwise there is one card per journey, in order, locked exactly when the journey is premium and the user is not |
| JourneyRow.LockOnlyPremiumForFreeUsers | src/components/JourneyRow.js:12-14 | A premium user sees no lock, a free journey is never locked, and an omitted flag acts as a non-premium user |
| SanityClient.Tags | src/lib/sanity.client.js:25-32 | A tree tag exists exactly when the tree id is truthy, and it comes first. A user tag exists exactly when the user id is truthy, and it comes last |
| SanityClient.Options | src/lib/sanity.client.js:34-51 | Every fetch is uncached and published-only, and carries those tags |
| SanityClient.TagsRoundTrip | src/lib/sanity.client.js:26-32 | Each tag names back the id it was built from |
| CrossChecks.ExtractedStatusIsStripe | src/app/api/webhooks/stripe/route.js:35-73 | When the subscriptions carry Stripe statuses, any tuple the webhook acts on carries one of Stripe's status words |
| CrossChecks.WebhookNeverGrantsPremium | src/components/Navigation/BottomNav.js:21-46 | Given that every subscription the webhook sees carries one of Stripe's own status words, no webhook delivery makes a record premium, and the record it writes has its content links locked |
| CrossChecks.GuardAgreesWithMiddleware | src/middleware.js:27-79 | On the five exact protected app paths the middleware, written or corrected, decides as the page guard does |
| CrossChecks.CheckoutCustomerReachesWebhookAndPortal | src/app/api/checkout/route.js:64-81 | When no other record already had the newly created customer id, the webhook's lookup for it finds the checked-out user, and the billing portal opens for that customer |
| CrossChecks.EnabledSubmitPassesValidation | src/app/onboarding/page.js:184 | An enabled submit button means a goal is selected, so a filled form passes the action's validation |
| CrossChecks.SubmitNeverHangs | src/app/onboarding/page.js:70-94 | For every result of the action, the form is either following the home redirect or unlocked |

## Left out

- Signature verification (`constructEvent`, an HMAC over the raw body) is opaque: a delivery arrives already `Verified` or `Rejected`.
- JWT encoding, GROQ query evaluation and the Sanity and Stripe client libraries are not modelled. Their observable results are inputs: the fetched record, the `Faults` flags, and the Stripe replies.
- The ISO-8601 text of `toISOString` is not modelled. A period end is stored as the integer millisecond instant the string denotes.
- StripeWebhook.ToISOString: the double-precision rounding of `timestamp * 1000` beyond 2^53 is not modelled; the product is exact.
- The clock (`new Date().getFullYear()`) is the `currentYear` parameter of `Years`.
- Logging, `revalidatePath`, CDN settings and response headers are not modelled, and neither are icons, class names or other rendering.
- The provider configuration objects (client ids, issuer, secrets, session strategy) are not modelled.
- Concurrent or out-of-order delivery of webhook events is not modelled. Deliveries are applied one after another.
- A `[0]` lookup without an ordering returns some match; the model fixes it to the lowest id.
- Middleware.Decide: a failing fetch in the middleware, and the store failures of the `jwt` and `signIn` callbacks and of `AuthGuard`, are not modelled. These take the record the store returns.
- AuthOptions.SignIn: assumes `account` and `profile` are present at sign-in.
- Values of the wrong JavaScript type are not modelled, for example a numeric `priceId`, an expanded customer object in a session, or a non-array `goals`.
- `JsNumbers.ParseInt` skips only ASCII white space, and it reads integers without rounding to double precision.
- JsNumbers.IntToString: always writes plain decimal digits. JavaScript's `String` switches to exponent notation ("1e+21") from a magnitude of 10^21 on, and that is not modelled. The round trip through `parseInt` holds only below that bound, which covers every month and year the form offers.
- `src/app/actions/progressActions.js` is not part of this model.
- Checkout.SecondCheckoutReusesCustomer: the set-once customer assumes each read sees the latest write. The checkout route reads through a client with `useCdn: true`, so a stale read could make it create a second customer; the store model has no stale reads.
- ManageSubscription.CustomerIdFor: the query constants `GET_STRIPE_ID_QUERY` and `GET_USER_BY_EMAIL_QUERY` are not defined in `src/lib/sanity.queries.js`, so as written those fetches fail. The model reads them as the by-email lookup they are evidently meant to be, in the portal route and in the `jwt` callback alike.
- Auth.Jwt: for the same reason, the fetch by `GET_USER_BY_EMAIL_QUERY` is read as the by-email lookup rather than as the failure it is as written.

## Findings

| source | as written | input that shows it | evidently intended | confidence | as-written member | corrected member |
|---|---|---|---|---|---|---|
| src/middleware.js:55-59 | A signed-in user with no record is redirected to "/", and "/" is itself in the matcher. | A request for "/" with token email "a@b.c" and no record with that email: the answer is a redirect to "/", which the middleware handles the same way again. | The request should not be sent back to the page it asked for. Letting "/" render breaks the loop. | medium; not executed | Middleware.SelfRedirectWithoutRecord | Middleware.DecideCorrected |
| src/app/api/checkout/route.js:45-49 | `PLAN_CONFIG[priceId]` also finds properties inherited from `Object.prototype`. | A body with `priceId: "constructor"`: the plan is the `Object` constructor, which is truthy, so the 400 check passes and the trial is 0. | Only the three configured prices pass. | high; not executed | Checkout.InheritedKeyPassesPlanCheck | Checkout.PostCorrected |

=== FILE: auth.dfy ===
/** The NextAuth callbacks of the application's auth helper: on sign-in the
    `jwt` callback finds the user's record by email or creates it as a free
    user, and `session` copies the token's id and status into the session. */
module Auth {
  import opened Common
  import opened UserStore

  /** The identity-provider user handed to the callbacks at sign-in. */
  datatype AuthUser = AuthUser(id: string, name: Option<string>, email: string)

  /** The JWT fields the callbacks of both configurations read or write. */
  datatype Token = Token(email: Option<string>, id: Option<Id>, subscriptionStatus: Option<string>, auth0Id: Option<string>)

  datatype SessionUser = SessionUser(email: Option<string>, id: Option<Id>, subscriptionStatus: Option<string>, auth0Id: Option<string>)

  datatype JwtOutcome = JwtOutcome(token: Token, store: Db)

  const FreeStatus := "free"

  /** The document created for a first sign-in. */
  function NewFreeUser(user: AuthUser): (r: UserRecord)
    ensures r.email == user.email && r.name == user.name && r.subscriptionStatus == Some(FreeStatus)
    ensures r.stripeCustomerId.None? && r.onboardingComplete.None?
  {
    Blank(user.email).(name := user.name, subscriptionStatus := Some(FreeStatus))
  }

  /** The `jwt` callback; `accountPresent` says whether NextAuth passed an
      `account`, which it does only at sign-in. */
  function Jwt(token: Token, user: Option<AuthUser>, accountPresent: bool, s: Db): (r: JwtOutcome)
    // Outside sign-in, the token comes back unchanged and the store is not touched.
    ensures !(accountPresent && user.Some?) ==> r == JwtOutcome(token, s)
    // An existing record: its id and status go into the token; nothing is created.
    ensures accountPresent && user.Some? && Find(s, ByEmail(user.value.email)).Some? ==>
              var id := Find(s, ByEmail(user.value.email)).value;
              r == JwtOutcome(token.(id := Some(id), subscriptionStatus := s.docs[id].subscriptionStatus), s)
    // No record: exactly one is created, as a free user, and the token carries it.
    ensures accountPresent && user.Some? && Find(s, ByEmail(user.value.email)).None? ==>
              && s.next !in s.docs
              && r.store.docs == s.docs[s.next := NewFreeUser(user.value)]
              && r.token == token.(id := Some(s.next), subscriptionStatus := Some(FreeStatus))
  {
    if accountPresent && user.Some? then
      match Find(s, ByEmail(user.value.email))
      case Some(id) => JwtOutcome(token.(id := Some(id), subscriptionStatus := s.docs[id].subscriptionStatus), s)
      case None =>
        var (s1, id) := Create(s, NewFreeUser(user.value));
        JwtOutcome(token.(id := Some(id), subscriptionStatus := Some(FreeStatus)), s1)
    else JwtOutcome(token, s)
  }

  /** The `session` callback: id and status are copied only when the token has an id. */
  function Session(session: SessionUser, token: Token): (r: SessionUser)
    ensures token.id.Some? ==> r == session.(id := token.id, subscriptionStatus := token.subscriptionStatus)
    ensures token.id.None? ==> r == session
  {
    if token.id.Some? then session.(id := token.id, subscriptionStatus := token.subscriptionStatus) else session
  }

  /** Find-or-create: after a sign-in the user has a record, and signing in
      again creates no second one and yields the same token. */
  lemma SignInFindOrCreate(token: Token, user: AuthUser, s: Db)
    ensures var first := Jwt(token, Some(user), true, s);
            && Find(first.store, ByEmail(user.email)).Some?
            && first.token.id == Find(first.store, ByEmail(user.email))
            && Jwt(token, Some(user), true, first.store) == first
  {
    if Find(s, ByEmail(user.email)).None? {
      FindAfterCreate(s, NewFreeUser(user), ByEmail(user.email));
    }
  }

  /** After a sign-in, the session built from the token names the user's
      record and carries the status stored on it. */
  lemma SignInReachesSession(session: SessionUser, token: Token, user: AuthUser, s: Db)
    ensures var first := Jwt(token, Some(user), true, s);
            var id := Find(first.store, ByEmail(user.email));
            var sess := Session(session, first.token);
            && id.Some? && sess.id == id
            && sess.subscriptionStatus == first.store.docs[id.value].subscriptionStatus
  {
    SignInFindOrCreate(token, user, s);
  }
}

=== FILE: authconfig.dfy ===
/** The NextAuth `authorized` callback: prefix-based protection of the app
    sections and a redirect of signed-in visitors away from the landing page. */
module AuthConfig {
  import opened Common

  /** `startsWith` on any of the four app sections; `/all-videos` is not among them. */
  predicate IsOnDashboard(pathname: string)
  {
    "/home" <= pathname || "/account" <= pathname || "/journeys" <= pathname || "/practice" <= pathname
  }

  /** The callback's answer: `Deny` for `false`, `Next` for `true`, or a redirect response. */
  function Authorized(isLoggedIn: bool, pathname: string): (d: Decision)
    ensures d == Deny <==> IsOnDashboard(pathname) && !isLoggedIn
    ensures d == Redirect("/home") <==> pathname == "/" && isLoggedIn
    ensures d == Next <==> !(IsOnDashboard(pathname) && !isLoggedIn) && !(pathname == "/" && isLoggedIn)
  {
    if IsOnDashboard(pathname) && !isLoggedIn then Deny
    else if pathname == "/" && isLoggedIn then Redirect("/home")
    else Next
  }

  /** Prefix matching protects every path below a section name, `/homework`
      included, while `/onboarding` and `/all-videos` stay open to anonymous visitors. */
  lemma PrefixProtection(suffix: string)
    ensures Authorized(false, "/home" + suffix) == Deny
    ensures Authorized(false, "/practice" + suffix) == Deny
    ensures Authorized(false, "/homework") == Deny
    ensures Authorized(false, "/onboarding") == Next
    ensures Authorized(false, "/all-videos") == Next
  {
    assert ("/home" + suffix)[..5] == "/home";
    assert ("/practice" + suffix)[..9] == "/practice";
    assert "/homework"[..5] == "/home";
    assert "/onboarding"[1] == 'o';
    assert "/all-videos"[2] == 'l' && "/account"[2] == 'c';
    assert "/all-videos"[1] == 'a';
  }
}

=== FILE: authguard.dfy ===
/** The `AuthGuard` server component: it renders its children only for a
    signed-in user whose record exists and who finished onboarding. No page of
    the app mounts it; the app layout renders the navigation without it. */
module AuthGuard {
  import opened Common
  import opened UserStore

  /** `Next` renders the children; `email` is the session's email and `user`
      the record the store returns for it. */
  function Guard(email: Option<string>, user: Option<UserRecord>): (d: Decision)
    ensures !Truthy(email) ==> d == Redirect("/")
    ensures Truthy(email) && user.None? ==> d == Redirect("/")
    ensures Truthy(email) && user.Some? && !TruthyBool(user.value.onboardingComplete) ==> d == Redirect("/onboarding")
    ensures d == Next <==> Truthy(email) && user.Some? && TruthyBool(user.value.onboardingComplete)
    ensures !d.Deny?
  {
    if !Truthy(email) then Redirect("/")
    else if user.None? then Redirect("/")
    else if !TruthyBool(user.value.onboardingComplete) then Redirect("/onboarding")
    else Next
  }

  /** Only `onboardingComplete` is read: the subscription fields never matter. */
  lemma GuardIgnoresSubscription(email: Option<string>, u1: UserRecord, u2: UserRecord)
    requires u1.onboardingComplete == u2.onboardingComplete
    ensures Guard(email, Some(u1)) == Guard(email, Some(u2))
  {
  }
}

=== FILE: authoptions.dfy ===
/** The older NextAuth options: on sign-in with the `auth0` provider, a record
    keyed by the identity-provider id is created when none exists; the token
    and session carry only that id. */
module AuthOptions {
  import opened Common
  import opened UserStore
  import Auth

  const Auth0Provider := "auth0"

  datatype SignInOutcome = SignInOutcome(allowed: bool, store: Db)

  /** The document created for a first sign-in: the name falls back to the profile's nickname. */
  function NewAuth0User(user: Auth.AuthUser, nickname: Option<string>): (r: UserRecord)
    ensures r.auth0Id == Some(user.id) && r.email == user.email
    ensures Truthy(user.name) ==> r.name == user.name
    ensures !Truthy(user.name) ==> r.name == nickname
    ensures r.subscriptionStatus.None? && r.stripeCustomerId.None?
  {
    Blank(user.email).(auth0Id := Some(user.id), name := OrElse(user.name, nickname))
  }

  /** The `signIn` callback; `provider` is `account.provider` and `nickname` the profile's. */
  function SignIn(user: Auth.AuthUser, provider: string, nickname: Option<string>, s: Db): (r: SignInOutcome)
    ensures r.allowed
    // A document is created only for auth0 and only when no record has the id.
    ensures r.store != s <==> provider == Auth0Provider && Find(s, ByAuth0Id(user.id)).None?
    ensures r.store != s ==> r.store.docs == s.docs[s.next := NewAuth0User(user, nickname)] && s.next !in s.docs
  {
    if provider == Auth0Provider && Find(s, ByAuth0Id(user.id)).None? then
      SignInOutcome(true, Create(s, NewAuth0User(user, nickname)).0)
    else SignInOutcome(true, s)
  }

  /** The `jwt` callback: the identity-provider id is recorded when a user is passed. */
  function Jwt(token: Auth.Token, user: Option<Auth.AuthUser>): (r: Auth.Token)
    ensures user.Some? ==> r == token.(auth0Id := Some(user.value.id))
    ensures user.None? ==> r == token
  {
    if user.Some? then token.(auth0Id := Some(user.value.id)) else token
  }

  /** The `session` callback: the session always takes the token's identity-provider id. */
  function Session(session: Auth.SessionUser, token: Auth.Token): (r: Auth.SessionUser)
    ensures r.auth0Id == token.auth0Id
    ensures r.(auth0Id := session.auth0Id) == session
  {
    session.(auth0Id := token.auth0Id)
  }

  /** At most one document per identity-provider id comes from sign-ins: a
      second sign-in after the first creates nothing. */
  lemma SignInIdempotent(user: Auth.AuthUser, provider: string, nickname: Option<string>, s: Db)
    ensures var first := SignIn(user, provider, nickname, s);
            SignIn(user, provider, nickname, first.store) == first
  {
    var first := SignIn(user, provider, nickname, s);
    if first.store != s {
      FindAfterCreate(s, NewAuth0User(user, nickname), ByAuth0Id(user.id));
    }
  }

  /** The session built after a sign-in carries the identity-provider id the
      sign-in recorded, the key of the record `SignIn` found or created. */
  lemma SessionCarriesSignInId(session: Auth.SessionUser, token: Auth.Token, user: Auth.AuthUser,
                               nickname: Option<string>, s: Db)
    ensures var first := SignIn(user, Auth0Provider, nickname, s);
            var sess := Session(session, Jwt(token, Some(user)));
            && sess.auth0Id == Some(user.id)
            && Find(first.store, ByAuth0Id(sess.auth0Id.value)).Some?
  {
    var first := SignIn(user, Auth0Provider, nickname, s);
    if first.store != s {
      FindAfterCreate(s, NewAuth0User(user, nickname), ByAuth0Id(user.id));
    }
  }
}

=== FILE: bottomnav.dfy ===
/** The bottom navigation bar: four links, two of which are locked and point
    to the subscribe page unless the user's status is exactly "premium". */
module BottomNav {
  import opened Common

  datatype NavLink = NavLink(name: string, href: string, activePath: string, isLocked: bool)

  const PremiumStatus := "premium"

  /** `subscriptionStatus === 'premium'`. */
  function IsPremium(status: Option<string>): (premium: bool)
    // No status at all is free.
    ensures status.None? ==> !premium
    ensures premium ==> status.value == PremiumStatus
    // The comparison is exact and case-sensitive: every other word is free.
    ensures status.Some? && status.value != PremiumStatus ==> !premium
    ensures status == Some("Premium") ==> !premium
  {
    status == Some(PremiumStatus)
  }

  function LockableLink(name: string, path: string, premium: bool): NavLink
  {
    NavLink(name, if premium then path else "/subscribe", path, !premium)
  }

  /** The links, for a user with the given status. */
  function NavLinks(status: Option<string>): (links: seq<NavLink>)
    ensures |links| == 4
    ensures links[0].name == "Home" && links[1].name == "All Videos"
            && links[2].name == "Journeys" && links[3].name == "Account"
    ensures links[0] == NavLink("Home", "/home", "/home", false)
    ensures links[3] == NavLink("Account", "/account", "/account", false)
    ensures links[1].activePath == "/all-videos" && links[2].activePath == "/journeys"
    // The two content links are locked, and lead to the subscribe page, exactly when not premium.
    ensures forall i :: 1 <= i <= 2 ==>
              (links[i].isLocked <==> !IsPremium(status))
              && links[i].href == (if IsPremium(status) then links[i].activePath else "/subscribe")
  {
    var premium := IsPremium(status);
    [ NavLink("Home", "/home", "/home", false),
      LockableLink("All Videos", "/all-videos", premium),
      LockableLink("Journeys", "/journeys", premium),
      NavLink("Account", "/account", "/account", false) ]
  }

  /** `pathname === link.activePath`. */
  function IsActive(pathname: string, link: NavLink): (active: bool)
    ensures pathname == link.activePath ==> active
    // Matching is exact: a page below a link's path does not highlight it.
    ensures link.activePath < pathname ==> !active
    ensures active ==> pathname == link.activePath
  {
    pathname == link.activePath
  }

  /** At most one link is active on any page, and on each link's own page it is that one. */
  lemma ActiveLinkUnique(status: Option<string>, pathname: string)
    ensures var links := NavLinks(status);
            forall i, j :: 0 <= i < j < |links| ==> !(IsActive(pathname, links[i]) && IsActive(pathname, links[j]))
    ensures var links := NavLinks(status);
            forall i :: 0 <= i < |links| ==> IsActive(links[i].activePath, links[i])
  {
    var links := NavLinks(status);
    assert links[0].activePath[1] == 'h' && links[1].activePath[1] == 'a';
    assert links[2].activePath[1] == 'j' && links[3].activePath[1] == 'a';
    assert links[1].activePath[2] == 'l' && links[3].activePath[2] == 'c';
  }
}

=== FILE: checkout.dfy ===
/** The checkout route: authenticate, resolve the plan, find the user, create
    and persist a Stripe customer on first use, then open a subscription
    checkout session and return its URL. */
module Checkout {
  import opened Common
  import opened UserStore

  const TrialPriceId := "price_1SQScqIlcUDYS9QKfEdD30Ym"
  const SecondPriceId := "price_1SQSdBIlcUDYS9QKU23n5Too"
  const ThirdPriceId := "price_1SQSdoIlcUDYS9QKBY2iNDfB"

  const ConfiguredPrices: set<string> := {TrialPriceId, SecondPriceId, ThirdPriceId}

  /** An entry of `PLAN_CONFIG`; `trialDays` is `None` for a value without that property. */
  datatype Plan = Plan(trialDays: Option<int>)

  /** The names `Object.prototype` supplies to every plain object. */
  const ObjectPrototypeKeys: set<string> := {
    "constructor", "__proto__", "toString", "toLocaleString", "valueOf", "hasOwnProperty",
    "isPrototypeOf", "propertyIsEnumerable", "__defineGetter__", "__defineSetter__",
    "__lookupGetter__", "__lookupSetter__"
  }

  /** `PLAN_CONFIG[priceId]` as written: the object's own three entries, and
      also every inherited property, which is a truthy value without `trialDays`. */
  function PlanLookup(priceId: string): (p: Option<Plan>)
    ensures p.Some? <==> priceId in ConfiguredPrices || priceId in ObjectPrototypeKeys
    ensures priceId == TrialPriceId ==> p == Some(Plan(Some(5)))
    ensures priceId == SecondPriceId || priceId == ThirdPriceId ==> p == Some(Plan(Some(0)))
  {
    if priceId == TrialPriceId then Some(Plan(Some(5)))
    else if priceId == SecondPriceId || priceId == ThirdPriceId then Some(Plan(Some(0)))
    else if priceId in ObjectPrototypeKeys then Some(Plan(None))
    else None
  }

  /** `PLAN_CONFIG` restricted to its own entries. */
  function ConfiguredPlan(priceId: string): (p: Option<Plan>)
    ensures p.Some? <==> priceId in ConfiguredPrices
    ensures p.Some? ==> p == PlanLookup(priceId)
  {
    if priceId in ConfiguredPrices then PlanLookup(priceId) else None
  }

  /** `plan.trialDays || 0`. */
  function TrialDays(plan: Plan): (days: int)
    // The fallback matters only for a plan without trial days: a configured
    // number, zero included, is taken as it is.
    ensures plan.trialDays.Some? ==> days == plan.trialDays.value
    ensures plan.trialDays.None? ==> days == 0
  {
    if TruthyInt(plan.trialDays) then plan.trialDays.value else 0
  }

  /** `request.json()`: either malformed (the call throws) or an object whose
      `priceId` may be missing. */
  datatype RequestBody = Malformed | Json(priceId: Option<string>)

  datatype LineItem = LineItem(price: string, quantity: nat)

  /** The parameters of `stripe.checkout.sessions.create`. */
  datatype SessionParams = SessionParams(
    paymentMethodTypes: seq<string>,
    mode: string,
    customer: string,
    lineItems: seq<LineItem>,
    allowPromotionCodes: bool,
    trialPeriodDays: Option<int>,   // `subscription_data.trial_period_days`, when present
    successUrl: string,
    cancelUrl: string,
    sanityUserId: Id
  )

  /** The parameters of `stripe.customers.create`. */
  datatype CustomerParams = CustomerParams(email: string, sanityId: Id)

  /** What Stripe answers; `None` means the call throws. */
  datatype StripeReplies = StripeReplies(newCustomerId: Option<string>, sessionUrl: Option<string>)

  /** The response, the store afterwards, and the Stripe calls made. */
  datatype Outcome = Outcome(response: Response, store: Db, customerCreated: Option<CustomerParams>, session: Option<SessionParams>)

  const CheckoutSessionPlaceholder := "{CHECKOUT_SESSION_ID}"

  function SessionFor(userId: Id, customer: string, priceId: string, trialDays: int, env: Env): (p: SessionParams)
    ensures p.mode == "subscription" && p.customer == customer && p.lineItems == [LineItem(priceId, 1)]
    ensures p.trialPeriodDays.Some? <==> trialDays > 0
    ensures p.trialPeriodDays.Some? ==> p.trialPeriodDays.value == trialDays
    ensures p.successUrl == BaseUrl(env) + "/account?session_id=" + CheckoutSessionPlaceholder
    ensures p.cancelUrl == BaseUrl(env) + "/subscribe"
  {
    SessionParams(["card"], "subscription", customer, [LineItem(priceId, 1)], true,
                  if trialDays > 0 then Some(trialDays) else None,
                  BaseUrl(env) + "/account?session_id=" + CheckoutSessionPlaceholder,
                  BaseUrl(env) + "/subscribe", userId)
  }

  /** Open the session once the customer id is known; `created` records a customer creation. */
  function OpenSession(userId: Id, customer: string, priceId: string, trialDays: int, env: Env,
                       s: Db, created: Option<CustomerParams>, stripe: StripeReplies): Outcome
  {
    var params := SessionFor(userId, customer, priceId, trialDays, env);
    match stripe.sessionUrl
    case None => Outcome(InternalError(env), s, created, Some(params))
    case Some(url) => Outcome(Ok(Url(url)), s, created, Some(params))
  }

  /** Everything after the plan lookup. */
  function WithPlan(email: string, priceId: string, plan: Option<Plan>, env: Env, s: Db, f: Faults, stripe: StripeReplies): Outcome
  {
    if plan.None? then Outcome(Response(400, Error("Invalid Price ID")), s, None, None)
    else if f.readFails then Outcome(InternalError(env), s, None, None)
    else
      match Find(s, ByEmail(email))
      case None => Outcome(Response(404, Error("User record not found")), s, None, None)
      case Some(id) =>
        var rec := s.docs[id];
        var trial := TrialDays(plan.value);
        if Truthy(rec.stripeCustomerId) then
          OpenSession(id, rec.stripeCustomerId.value, priceId, trial, env, s, None, stripe)
        else
          var req := CustomerParams(rec.email, id);
          match stripe.newCustomerId
          case None => Outcome(InternalError(env), s, Some(req), None)
          case Some(cid) =>
            if f.patchFails then Outcome(InternalError(env), s, Some(req), None)
            else OpenSession(id, cid, priceId, trial, env, Put(s, id, rec.(stripeCustomerId := Some(cid))), Some(req), stripe)
  }

  /** The user record a signed-in request resolves to. */
  function UserFor(s: Db, email: string): Option<Id>
  {
    Find(s, ByEmail(email))
  }

  /** The request gets past the session, plan and lookup checks to a user record. */
  predicate ReachesRecord(email: Option<string>, body: RequestBody, s: Db, f: Faults)
  {
    && Truthy(email) && body.Json? && body.priceId.Some? && PlanLookup(body.priceId.value).Some?
    && !f.readFails && UserFor(s, email.value).Some?
  }

  /** The `POST` handler, as written. */
  function Post(email: Option<string>, body: RequestBody, env: Env, s: Db, f: Faults, stripe: StripeReplies): (r: Outcome)
    // No session email: 401 before anything else is touched.
    ensures !Truthy(email) ==> r == Outcome(Response(401, Error("Unauthorized")), s, None, None)
    // An unknown plan: 400, after the session check and before the store.
    ensures r.response.status == 400 <==>
              Truthy(email) && body.Json? && (body.priceId.None? || PlanLookup(body.priceId.value).None?)
    ensures r.response.status == 400 ==> r == Outcome(Response(400, Error("Invalid Price ID")), s, None, None)
    // No record for the email: 404, after the plan check.
    ensures r.response.status == 404 <==>
              Truthy(email) && body.Json? && body.priceId.Some? && PlanLookup(body.priceId.value).Some?
              && !f.readFails && UserFor(s, email.value).None?
    ensures r.response.status == 404 ==> r == Outcome(Response(404, Error("User record not found")), s, None, None)
    // Set-once: a customer is created only for a record without one, and the
    // only store change is that record's new customer id.
    ensures r.customerCreated.Some? ==>
              Truthy(email) && UserFor(s, email.value).Some?
              && var id := UserFor(s, email.value).value;
                 !Truthy(s.docs[id].stripeCustomerId)
                 && r.customerCreated == Some(CustomerParams(s.docs[id].email, id))
    ensures r.store != s ==>
              r.customerCreated.Some? && r.session.Some?
              && var id := UserFor(s, email.value).value;
                 r.store == Put(s, id, s.docs[id].(stripeCustomerId := Some(r.session.value.customer)))
    // An existing customer id is reused unchanged.
    ensures r.session.Some? ==>
              Truthy(email) && body.Json? && body.priceId.Some? && UserFor(s, email.value).Some?
              && var id := UserFor(s, email.value).value;
                 var plan := PlanLookup(body.priceId.value);
                 && plan.Some?
                 && r.session.value == SessionFor(id, r.session.value.customer, body.priceId.value, TrialDays(plan.value), env)
                 && (Truthy(s.docs[id].stripeCustomerId) ==>
                       r.session.value.customer == s.docs[id].stripeCustomerId.value && r.store == s && r.customerCreated.None?)
    // A body that is not JSON, or a failed lookup, answers 500 with nothing done.
    ensures Truthy(email) && body.Malformed? ==> r == Outcome(InternalError(env), s, None, None)
    ensures (Truthy(email) && body.Json? && body.priceId.Some? && PlanLookup(body.priceId.value).Some? && f.readFails)
              ==> r == Outcome(InternalError(env), s, None, None)
    // A signed-in request with a known plan and a record: with a stored
    // customer the session opens for it; without one a customer is created,
    // and once it is stored the session opens for the new customer.
    ensures ReachesRecord(email, body, s, f) ==>
              var id := UserFor(s, email.value).value;
              var rec := s.docs[id];
              var req := CustomerParams(rec.email, id);
              && (Truthy(rec.stripeCustomerId) ==> r.session.Some?)
              && (!Truthy(rec.stripeCustomerId) ==> r.customerCreated == Some(req))
              && (!Truthy(rec.stripeCustomerId) && stripe.newCustomerId.None? ==> r == Outcome(InternalError(env), s, Some(req), None))
              && (!Truthy(rec.stripeCustomerId) && stripe.newCustomerId.Some? && f.patchFails ==>
                    r == Outcome(InternalError(env), s, Some(req), None))
              && (!Truthy(rec.stripeCustomerId) && stripe.newCustomerId.Some? && !f.patchFails ==>
                    && r.session.Some? && r.session.value.customer == stripe.newCustomerId.value
                    && r.store == Put(s, id, rec.(stripeCustomerId := stripe.newCustomerId)))
    ensures r.response.status == 200 <==> r.session.Some? && stripe.sessionUrl.Some?
    ensures r.response.status == 200 ==> r.response.body == Url(stripe.sessionUrl.value)
    ensures r.session.Some? && stripe.sessionUrl.None? ==> r.response == InternalError(env)
    ensures r.response.status in {200, 400, 401, 404, 500}
  {
    if !Truthy(email) then Outcome(Response(401, Error("Unauthorized")), s, None, None)
    else
      match body
      case Malformed => Outcome(InternalError(env), s, None, None)
      case Json(priceId) =>
        if priceId.None? then Outcome(Response(400, Error("Invalid Price ID")), s, None, None)
        else WithPlan(email.value, priceId.value, PlanLookup(priceId.value), env, s, f, stripe)
  }

  /** Only the first configured price carries a trial, of five days. */
  lemma TrialOnlyForFirstPrice(priceId: string)
    requires PlanLookup(priceId).Some?
    ensures TrialDays(PlanLookup(priceId).value) == (if priceId == TrialPriceId then 5 else 0)
    ensures TrialDays(PlanLookup(priceId).value) > 0 <==> priceId == TrialPriceId
  {
  }

  /** A second checkout after one that created and persisted a customer
      reuses that customer and creates none. */
  lemma SecondCheckoutReusesCustomer(email: string, body: RequestBody, env: Env, s: Db, f: Faults, stripe: StripeReplies,
                                     body2: RequestBody, stripe2: StripeReplies)
    requires Post(Some(email), body, env, s, f, stripe).store != s
    requires stripe.newCustomerId != Some("")  // Stripe ids are never empty
    requires body2.Json? && body2.priceId.Some? && PlanLookup(body2.priceId.value).Some? && !f.readFails
    ensures var s1 := Post(Some(email), body, env, s, f, stripe).store;
            var r2 := Post(Some(email), body2, env, s1, f, stripe2);
            && r2.customerCreated.None?
            && r2.store == s1
            && r2.session.Some?
            && r2.session.value.customer == Post(Some(email), body, env, s, f, stripe).session.value.customer
  {
    var r1 := Post(Some(email), body, env, s, f, stripe);
    var id := UserFor(s, email).value;
    FindStable(s, r1.store, ByEmail(email));
    assert UserFor(r1.store, email) == Some(id);
    assert r1.store.docs[id].stripeCustomerId == stripe.newCustomerId;
  }

  /** As written, a price id naming an inherited property passes the plan
      check: `"constructor"` is no configured price, yet gets no 400. */
  lemma InheritedKeyPassesPlanCheck(email: string, env: Env, s: Db, f: Faults, stripe: StripeReplies)
    requires email != ""
    ensures "constructor" !in ConfiguredPrices
    ensures PlanLookup("constructor") == Some(Plan(None))
    ensures Post(Some(email), Json(Some("constructor")), env, s, f, stripe).response.status != 400
  {
  }

  /** The handler with the plan looked up among `PLAN_CONFIG`'s own entries only. */
  function PostCorrected(email: Option<string>, body: RequestBody, env: Env, s: Db, f: Faults, stripe: StripeReplies): (r: Outcome)
    ensures r.response.status == 400 <==>
              Truthy(email) && body.Json? && (body.priceId.None? || body.priceId.value !in ConfiguredPrices)
    ensures r.session.Some? ==>
              body.Json? && body.priceId.Some? && body.priceId.value in ConfiguredPrices
              && r.session.value.lineItems == [LineItem(body.priceId.value, 1)]
    ensures Truthy(email) && body.Json? && body.priceId.Some? && body.priceId.value in ConfiguredPrices ==>
              r == Post(email, body, env, s, f, stripe)
  {
    if !Truthy(email) then Outcome(Response(401, Error("Unauthorized")), s, None, None)
    else
      match body
      case Malformed => Outcome(InternalError(env), s, None, None)
      case Json(priceId) =>
        if priceId.None? then Outcome(Response(400, Error("Invalid Price ID")), s, None, None)
        else WithPlan(email.value, priceId.value, ConfiguredPlan(priceId.value), env, s, f, stripe)
  }
}

=== FILE: common.dfy ===
/** Shared vocabulary: optional values, JavaScript truthiness, HTTP responses,
    routing decisions and the application's environment configuration. */
module Common {

  /** A value that may be missing (`null`/`undefined` in the application). */
  datatype Option<+T> = None | Some(value: T)

  /** A field compared with `!== null`: JavaScript tells `undefined` apart from `null`. */
  datatype Nullable<+T> = Undefined | Null | Present(value: T)

  /** JavaScript truthiness of an optional string: present and non-empty. */
  predicate Truthy(s: Option<string>)
  {
    s.Some? && s.value != ""
  }

  /** JavaScript truthiness of an optional number: present and non-zero. */
  predicate TruthyInt(n: Option<int>)
  {
    n.Some? && n.value != 0
  }

  /** JavaScript truthiness of an optional boolean. */
  predicate TruthyBool(b: Option<bool>)
  {
    b == Some(true)
  }

  /** `a || b` on optional strings: the first operand when truthy, else the second. */
  function OrElse(a: Option<string>, b: Option<string>): (r: Option<string>)
    ensures Truthy(a) ==> r == a
    ensures !Truthy(a) ==> r == b
  {
    if Truthy(a) then a else b
  }

  /** The JSON body of a route handler's response. */
  datatype Body =
    | Received                 // `{ received: true }`
    | Error(message: string)   // `{ error: <message> }`
    | ExceptionDetail          // `{ error: error.message }` in development mode
    | Url(url: string)         // `{ url: <url> }`

  datatype Response = Response(status: int, body: Body)

  function Ok(body: Body): Response
  {
    Response(200, body)
  }

  /** What a routing gate does with a request: let it through, send the
      browser elsewhere, or refuse it (an `authorized` callback returning false). */
  datatype Decision = Next | Redirect(path: string) | Deny

  /** Environment variables read by the request handlers. */
  datatype Env = Env(
    nextAuthUrl: Option<string>,   // NEXTAUTH_URL
    publicAppUrl: Option<string>,  // NEXT_PUBLIC_APP_URL
    development: bool              // NODE_ENV === 'development'
  )

  const LocalBaseUrl := "http://localhost:3000"

  /** The redirect base shared by checkout and the billing portal:
      NEXTAUTH_URL, else NEXT_PUBLIC_APP_URL, else the local development URL. */
  function BaseUrl(env: Env): (r: string)
    ensures Truthy(env.nextAuthUrl) ==> r == env.nextAuthUrl.value
    ensures !Truthy(env.nextAuthUrl) && Truthy(env.publicAppUrl) ==> r == env.publicAppUrl.value
    ensures !Truthy(env.nextAuthUrl) && !Truthy(env.publicAppUrl) ==> r == LocalBaseUrl
    ensures r != ""
  {
    if Truthy(env.nextAuthUrl) then env.nextAuthUrl.value
    else if Truthy(env.publicAppUrl) then env.publicAppUrl.value
    else LocalBaseUrl
  }

  /** The 500 response of a handler whose catch block reports the error. */
  function InternalError(env: Env): (r: Response)
    ensures r.status == 500
    ensures env.development <==> r.body == ExceptionDetail
    ensures !env.development ==> r.body == Error("Internal Server Error")
  {
    Response(500, if env.development then ExceptionDetail else Error("Internal Server Error"))
  }
}

=== FILE: crosschecks.dfy ===
/** Properties that span several routes and components: the billing status the
    webhook writes against the status the navigation unlocks for, the page
    guard against the middleware, and the customer id the checkout persists
    against the lookups of the webhook and of the billing portal. */
module CrossChecks {
  import opened Common
  import opened UserStore
  import StripeWebhook
  import Middleware
  import AuthGuard
  import Checkout
  import ManageSubscription
  import BottomNav
  import OnboardingPage
  import OnboardingActions

  /** The subscription statuses Stripe reports. */
  const StripeStatuses: set<string> := {
    "active", "canceled", "incomplete", "incomplete_expired", "past_due", "paused", "trialing", "unpaid"
  }

  predicate StripeStatus(status: Option<string>)
  {
    status.None? || status.value in StripeStatuses
  }

  /** Every subscription object the webhook can see carries a Stripe status. */
  predicate StripeVocabulary(e: StripeWebhook.Event, subs: map<string, StripeWebhook.Subscription>)
  {
    && (forall sid :: sid in subs ==> StripeStatus(subs[sid].status))
    && (e.SubscriptionCreated? || e.SubscriptionUpdated? || e.SubscriptionDeleted? ==> StripeStatus(e.sub.status))
  }

  /** Whatever the webhook extracts from such an event carries a Stripe status. */
  lemma ExtractedStatusIsStripe(e: StripeWebhook.Event, subs: map<string, StripeWebhook.Subscription>)
    requires StripeVocabulary(e, subs)
    requires StripeWebhook.Classify(e, subs).Extracted?
    requires StripeWebhook.Actionable(StripeWebhook.Classify(e, subs).tuple)
    ensures StripeWebhook.Classify(e, subs).tuple.status.value in StripeStatuses
  {
    var t := StripeWebhook.Classify(e, subs).tuple;
    match e
    case CheckoutSessionCompleted(ses) =>
      var id := StripeWebhook.RefId(ses.subscription);
      assert id.Some? && id.value in subs && t.status == subs[id.value].status;
    case InvoicePaymentSucceeded(inv) =>
      assert inv.subscription.value in subs && t.status == subs[inv.subscription.value].status;
    case SubscriptionCreated(sub) =>
    case SubscriptionUpdated(sub) =>
    case SubscriptionDeleted(sub) =>
    case Unhandled(_) =>
  }

  /** The navigation unlocks only for the status "premium", which is not a
      Stripe status: no webhook delivery makes a record premium, and the record
      a delivery writes has its content links locked. */
  lemma WebhookNeverGrantsPremium(v: StripeWebhook.Verification, subs: map<string, StripeWebhook.Subscription>,
                                  s: Db, f: Faults, id: Id)
    requires v.Verified? ==> StripeVocabulary(v.event, subs)
    ensures var r := StripeWebhook.Post(v, subs, s, f);
            id in r.store.docs && BottomNav.IsPremium(r.store.docs[id].subscriptionStatus) ==>
              id in s.docs && BottomNav.IsPremium(s.docs[id].subscriptionStatus)
    ensures var r := StripeWebhook.Post(v, subs, s, f);
            r.written.Some? ==>
              var links := BottomNav.NavLinks(r.store.docs[r.written.value].subscriptionStatus);
              links[1].isLocked && links[2].isLocked
  {
    var r := StripeWebhook.Post(v, subs, s, f);
    if r.written.Some? {
      ExtractedStatusIsStripe(v.event, subs);
      assert BottomNav.PremiumStatus !in StripeStatuses;
      assert !BottomNav.IsPremium(r.store.docs[r.written.value].subscriptionStatus);
    }
  }

  /** On the app pages both gates run; they reach the same decision there,
      with the middleware as written and as corrected. */
  lemma GuardAgreesWithMiddleware(pathname: string, email: Option<string>, user: Option<UserRecord>)
    requires pathname in Middleware.ProtectedAppPaths
    ensures Middleware.Decide(pathname, email, user) == AuthGuard.Guard(email, user)
    ensures Middleware.DecideCorrected(pathname, email, user) == AuthGuard.Guard(email, user)
  {
    assert pathname != Middleware.OnboardingPath && pathname !in Middleware.PublicPaths;
  }

  /** After a checkout that created and persisted a customer, provided no other
      record already carried that id, the webhook's lookup for the customer
      finds the checked-out user, and the billing portal opens for it. */
  lemma CheckoutCustomerReachesWebhookAndPortal(email: string, body: Checkout.RequestBody, env: Env, s: Db, f: Faults,
                                                stripe: Checkout.StripeReplies, portalUrl: Option<string>)
    requires Checkout.Post(Some(email), body, env, s, f, stripe).store != s
    requires stripe.newCustomerId.Some? && stripe.newCustomerId != Some("")
    requires forall j :: j in s.docs ==> s.docs[j].stripeCustomerId != stripe.newCustomerId
    ensures var s1 := Checkout.Post(Some(email), body, env, s, f, stripe).store;
            var cid := stripe.newCustomerId.value;
            && Find(s1, ByStripeCustomer(cid)) == Find(s, ByEmail(email))
            && ManageSubscription.Post(Some(email), env, s1, NoFaults, portalUrl).portal
               == Some(ManageSubscription.PortalParams(cid, BaseUrl(env) + "/account"))
  {
    var r1 := Checkout.Post(Some(email), body, env, s, f, stripe);
    var s1 := r1.store;
    var cid := stripe.newCustomerId.value;
    var id := Find(s, ByEmail(email)).value;
    assert s1.docs == s.docs[id := s.docs[id].(stripeCustomerId := Some(cid))];
    FindStable(s, s1, ByEmail(email));
    var w := Find(s1, ByStripeCustomer(cid));
    assert id in s1.docs && Matches(s1.docs[id], ByStripeCustomer(cid));
    assert w.Some?;
    assert w.value == id;
  }

  /** The page enables its submit button only with a goal selected, so a
      submission from the page with the other fields filled passes the
      server action's validation. */
  lemma EnabledSubmitPassesValidation(loading: bool, selected: seq<string>, name: string, month: string, year: string)
    requires !OnboardingPage.SubmitDisabled(loading, selected)
    requires name != "" && month != "" && year != ""
    ensures OnboardingActions.Complete(OnboardingActions.FormData(Some(name), Some(month), Some(year), Some(selected)))
  {
  }

  /** Every result the server action returns leaves the onboarding form either
      following the home redirect or unlocked with an error on screen. */
  lemma SubmitNeverHangs(email: Option<string>, sessionName: Option<string>, form: OnboardingActions.FormData,
                         s: Db, f: Faults)
    ensures var result := OnboardingActions.CompleteOnboarding(email, sessionName, form, s, f).result;
            var st := OnboardingPage.AfterSubmit(result);
            st.loading <==> result == OnboardingActions.RedirectHome
  {
  }
}

=== FILE: journeyrow.dfy ===
/** A row of journey cards; a premium journey's card is locked for a user
    who is not premium. */
module JourneyRow {
  import opened Common

  datatype Journey = Journey(id: string, isPremium: bool)

  datatype Card = Card(journey: Journey, isLocked: bool)

  /** The row's cards, or `None` when the component renders nothing.
      `isPremiumUser` is `None` when the prop is omitted; it then defaults to false. */
  function Render(journeys: Option<seq<Journey>>, isPremiumUser: Option<bool>): (r: Option<seq<Card>>)
    ensures r.None? <==> journeys.None? || |journeys.value| == 0
    ensures r.Some? ==> |r.value| == |journeys.value|
    ensures r.Some? ==> forall i :: 0 <= i < |r.value| ==> r.value[i].journey == journeys.value[i]
    ensures r.Some? ==> forall i :: 0 <= i < |r.value| ==>
              (r.value[i].isLocked <==> journeys.value[i].isPremium && !TruthyBool(isPremiumUser))
  {
    if journeys.None? || |journeys.value| == 0 then None
    else
      var premiumUser := TruthyBool(isPremiumUser);
      var js := journeys.value;
      Some(seq(|js|, i requires 0 <= i < |js| => Card(js[i], js[i].isPremium && !premiumUser)))
  }

  /** A premium user sees no lock, and a free journey is never locked; an
      omitted flag behaves as a non-premium user. */
  lemma LockOnlyPremiumForFreeUsers(journeys: seq<Journey>, isPremiumUser: Option<bool>)
    requires |journeys| > 0
    ensures isPremiumUser == Some(true) ==> forall c :: c in Render(Some(journeys), isPremiumUser).value ==> !c.isLocked
    ensures forall c :: c in Render(Some(journeys), isPremiumUser).value && !c.journey.isPremium ==> !c.isLocked
    ensures Render(Some(journeys), None) == Render(Some(journeys), Some(false))
  {
  }
}

=== FILE: manage.dfy ===
/** The manage-subscription route: a signed-in user with a Stripe customer id
    gets a billing-portal URL that returns to the account page. */
module ManageSubscription {
  import opened Common
  import opened UserStore

  /** The parameters of `stripe.billingPortal.sessions.create`. */
  datatype PortalParams = PortalParams(customer: string, returnUrl: string)

  datatype Outcome = Outcome(response: Response, portal: Option<PortalParams>)

  /** The customer id the store returns for an email: that of the record found
      by email, or nothing when there is no such record. */
  function CustomerIdFor(s: Db, email: string): (c: Option<string>)
    ensures Find(s, ByEmail(email)).None? ==> c.None?
    ensures Find(s, ByEmail(email)).Some? ==> c == s.docs[Find(s, ByEmail(email)).value].stripeCustomerId
  {
    match Find(s, ByEmail(email))
    case None => None
    case Some(id) => s.docs[id].stripeCustomerId
  }

  /** The `POST` handler; `portalUrl` is the URL of the portal session Stripe
      creates, `None` when that call throws. The store is only read. */
  function Post(email: Option<string>, env: Env, s: Db, f: Faults, portalUrl: Option<string>): (r: Outcome)
    ensures !Truthy(email) ==> r == Outcome(Response(401, Error("Unauthorized")), None)
    // A failed lookup, or a failed portal creation, answers 500.
    ensures Truthy(email) && f.readFails ==> r == Outcome(InternalError(env), None)
    ensures r.portal.Some? && portalUrl.None? ==> r.response == InternalError(env)
    ensures r.response.status == 404 <==>
              Truthy(email) && !f.readFails && !Truthy(CustomerIdFor(s, email.value))
    ensures r.response.status == 404 ==> r == Outcome(Response(404, Error("No subscription found to manage.")), None)
    // The portal is opened for the stored customer and returns to the account page.
    ensures r.portal.Some? <==> Truthy(email) && !f.readFails && Truthy(CustomerIdFor(s, email.value))
    ensures r.portal.Some? ==>
              r.portal.value == PortalParams(CustomerIdFor(s, email.value).value, BaseUrl(env) + "/account")
    ensures r.response.status == 200 <==> r.portal.Some? && portalUrl.Some?
    ensures r.response.status == 200 ==> r.response.body == Url(portalUrl.value)
    ensures r.response.status in {200, 401, 404, 500}
  {
    if !Truthy(email) then Outcome(Response(401, Error("Unauthorized")), None)
    else if f.readFails then Outcome(InternalError(env), None)
    else
      var customer := CustomerIdFor(s, email.value);
      if !Truthy(customer) then Outcome(Response(404, Error("No subscription found to manage.")), None)
      else
        var params := PortalParams(customer.value, BaseUrl(env) + "/account");
        match portalUrl
        case None => Outcome(InternalError(env), Some(params))
        case Some(url) => Outcome(Ok(Url(url)), Some(params))
  }
}

=== FILE: middleware.dfy ===
/** The edge middleware: an exact-match redirect ladder over the request path,
    the token's email and the user record fetched by that email. */
module Middleware {
  import opened Common
  import opened UserStore

  const LandingPath := "/"
  const OnboardingPath := "/onboarding"
  const HomePath := "/home"
  const PublicPaths: seq<string> := [LandingPath]
  const ProtectedAppPaths: seq<string> := ["/home", "/journeys", "/account", "/all-videos", "/subscribe"]

  /** Whether the middleware runs on a path at all: the listed paths, plus
      `/practice/:path*`, which takes `/practice` and everything below it. */
  predicate InMatcher(path: string)
  {
    path in ["/", "/home", "/journeys", "/account", "/onboarding", "/all-videos", "/subscribe"]
    || path == "/practice" || "/practice/" <= path
  }

  /** The redirect decision, as written. `email` is the token's email and
      `user` the record the store returns for it. */
  function Decide(pathname: string, email: Option<string>, user: Option<UserRecord>): (d: Decision)
    ensures !d.Deny?
    // Not logged in: exactly the listed protected paths and onboarding go to the landing page.
    ensures !Truthy(email) ==>
              (d == Redirect(LandingPath) <==> pathname in ProtectedAppPaths || pathname == OnboardingPath)
    ensures !Truthy(email) ==> (d == Next <==> pathname !in ProtectedAppPaths && pathname != OnboardingPath)
    // Logged in without a record: always back to the landing page.
    ensures Truthy(email) && user.None? ==> d == Redirect(LandingPath)
    // Onboarding incomplete: everything except the onboarding page goes there.
    ensures Truthy(email) && user.Some? && !TruthyBool(user.value.onboardingComplete) ==>
              (d == Redirect(OnboardingPath) <==> pathname != OnboardingPath)
              && (d == Next <==> pathname == OnboardingPath)
    // Onboarding complete: the landing and onboarding pages go home, the rest pass.
    ensures Truthy(email) && user.Some? && TruthyBool(user.value.onboardingComplete) ==>
              (d == Redirect(HomePath) <==> pathname == OnboardingPath || pathname in PublicPaths)
              && (d == Next <==> pathname != OnboardingPath && pathname !in PublicPaths)
  {
    if !Truthy(email) then
      if pathname in ProtectedAppPaths || pathname == OnboardingPath then Redirect(LandingPath) else Next
    else if user.None? then Redirect(LandingPath)
    else if !TruthyBool(user.value.onboardingComplete) && pathname != OnboardingPath then Redirect(OnboardingPath)
    else if TruthyBool(user.value.onboardingComplete) && (pathname == OnboardingPath || pathname in PublicPaths) then Redirect(HomePath)
    else Next
  }

  /** A request as Next.js routes it: paths outside the matcher never reach the middleware. */
  function Route(pathname: string, email: Option<string>, user: Option<UserRecord>): (d: Decision)
    ensures !InMatcher(pathname) ==> d == Next
    ensures InMatcher(pathname) ==> d == Decide(pathname, email, user)
  {
    if InMatcher(pathname) then Decide(pathname, email, user) else Next
  }

  /** The status the middleware fetches is never consulted: two records that
      agree on `onboardingComplete` get the same decision. */
  lemma DecisionIgnoresSubscription(pathname: string, email: Option<string>, u1: UserRecord, u2: UserRecord)
    requires u1.onboardingComplete == u2.onboardingComplete
    ensures Decide(pathname, email, Some(u1)) == Decide(pathname, email, Some(u2))
  {
  }

  /** Matching is exact: a practice page is in the matcher, yet an anonymous
      request for it passes. */
  lemma AnonymousPracticePagePasses(slug: string, user: Option<UserRecord>)
    ensures InMatcher("/practice/" + slug)
    ensures Route("/practice/" + slug, None, user) == Next
  {
    var p := "/practice/" + slug;
    assert p[1] == 'p';
    assert forall q :: q in ProtectedAppPaths || q == OnboardingPath ==> q[1] != 'p';
  }

  /** As written, a logged-in user whose record is missing and who asks for the
      landing page is redirected to the landing page itself, which the matcher
      sends back through the middleware: a redirect loop. */
  lemma SelfRedirectWithoutRecord(email: string)
    requires email != ""
    ensures Route(LandingPath, Some(email), None) == Redirect(LandingPath)
  {
  }

  /** The loop above is the only self-redirect the ladder makes. */
  lemma SelfRedirectOnlyWithoutRecordOnLanding(pathname: string, email: Option<string>, user: Option<UserRecord>)
    requires Decide(pathname, email, user) == Redirect(pathname)
    ensures Truthy(email) && user.None? && pathname == LandingPath
  {
  }

  /** The ladder with the landing page exempted from the missing-record
      redirect, so that no request is sent to the path it asked for. */
  function DecideCorrected(pathname: string, email: Option<string>, user: Option<UserRecord>): (d: Decision)
    ensures d.Redirect? ==> d.path != pathname
    ensures !(Truthy(email) && user.None? && pathname == LandingPath) ==> d == Decide(pathname, email, user)
    ensures Truthy(email) && user.None? && pathname == LandingPath ==> d == Next
  {
    if Truthy(email) && user.None? && pathname == LandingPath then Next
    else Decide(pathname, email, user)
  }
}

=== FILE: numbers.dfy ===
/** The two number conversions the onboarding flow relies on: `String(n)`,
    which the browser applies to a `<select>` option's numeric value, and
    `parseInt(s, 10)`, which the server action applies to the submitted string. */
module JsNumbers {
  import opened Common

  predicate IsDigit(c: char)
  {
    '0' <= c <= '9'
  }

  predicate AllDigits(s: string)
  {
    forall i :: 0 <= i < |s| ==> IsDigit(s[i])
  }

  /** The ASCII white space `parseInt` skips before the number. */
  predicate IsSpace(c: char)
  {
    c == ' ' || c == '\t' || c == '\n' || c == '\r' || c as int == 11 || c as int == 12
  }

  function DigitChar(d: nat): (c: char)
    requires d < 10
    ensures IsDigit(c)
  {
    ('0' as int + d) as char
  }

  function DigitValue(c: char): (d: nat)
    requires IsDigit(c)
    ensures d < 10 && DigitChar(d) == c
  {
    (c as int - '0' as int) as nat
  }

  /** The decimal digits of `n`, most significant first, without leading zeros. */
  function NatToString(n: nat): (r: string)
    ensures |r| > 0 && AllDigits(r)
    ensures r[0] == '0' ==> n == 0 && r == "0"
  {
    if n < 10 then [DigitChar(n)] else NatToString(n / 10) + [DigitChar(n % 10)]
  }

  /** `String(n)` for an integer `n`. */
  function IntToString(n: int): (r: string)
    // A minus sign exactly for a negative number, then decimal digits
    // without a leading zero except for zero itself.
    ensures |r| > 0 && (r[0] == '-' <==> n < 0)
    ensures var digits := if n < 0 then r[1..] else r;
            |digits| > 0 && AllDigits(digits) && (digits[0] == '0' ==> digits == "0" && n == 0)
  {
    if n < 0 then "-" + NatToString(-n) else NatToString(n)
  }

  /** The value of a string of decimal digits. */
  function DigitsValue(d: string): nat
    requires AllDigits(d)
  {
    if |d| == 0 then 0 else DigitsValue(d[..|d| - 1]) * 10 + DigitValue(d[|d| - 1])
  }

  function TrimStart(s: string): (r: string)
    ensures |r| <= |s| && r == s[|s| - |r|..]
    ensures |r| > 0 ==> !IsSpace(r[0])
  {
    if |s| > 0 && IsSpace(s[0]) then TrimStart(s[1..]) else s
  }

  /** The longest prefix of decimal digits. */
  function DigitPrefix(s: string): (r: string)
    ensures r <= s && AllDigits(r)
    ensures |r| < |s| ==> !IsDigit(s[|r|])
  {
    if |s| > 0 && IsDigit(s[0]) then [s[0]] + DigitPrefix(s[1..]) else []
  }

  /** The value of the leading run of digits; `None` (NaN) when there is none. */
  function ParseDigits(b: string): (r: Option<int>)
    ensures r.Some? ==> r.value >= 0
  {
    var d := DigitPrefix(b);
    if |d| == 0 then None else Some(DigitsValue(d))
  }

  function Negate(r: Option<int>): Option<int>
  {
    if r.Some? then Some(-r.value) else None
  }

  /** `parseInt(s, 10)`: skip leading white space, read an optional sign and the
      longest run of digits; `None` is NaN, the result when there is no digit. */
  function ParseInt(s: string): (r: Option<int>)
    // Blank text is NaN.
    ensures |TrimStart(s)| == 0 ==> r.None?
    // Text that starts with neither a sign nor a digit is NaN.
    ensures (|TrimStart(s)| > 0 && !IsDigit(TrimStart(s)[0]) && TrimStart(s)[0] != '-' && TrimStart(s)[0] != '+')
              ==> r.None?
    // A negative result needs a minus sign.
    ensures r.Some? && r.value < 0 ==> TrimStart(s)[0] == '-'
  {
    var t := TrimStart(s);
    if |t| > 0 && t[0] == '-' then Negate(ParseDigits(t[1..]))
    else if |t| > 0 && t[0] == '+' then ParseDigits(t[1..])
    else ParseDigits(t)
  }

  lemma {:induction false} DigitsValueOfNatToString(n: nat)
    ensures DigitsValue(NatToString(n)) == n
  {
    if n >= 10 {
      var s := NatToString(n);
      DigitsValueOfNatToString(n / 10);
      assert s[..|s| - 1] == NatToString(n / 10);
    }
  }

  lemma {:induction false} DigitPrefixOfDigits(d: string)
    requires AllDigits(d)
    ensures DigitPrefix(d) == d
  {
    if |d| > 0 {
      DigitPrefixOfDigits(d[1..]);
    }
  }

  /** Text that does not start with white space is not trimmed. */
  lemma TrimStartOfNonSpace(s: string)
    requires |s| > 0 && !IsSpace(s[0])
    ensures TrimStart(s) == s
  {
  }

  /** A run of digits parses to its value. */
  lemma ParseIntOfDigits(d: string)
    requires |d| > 0 && AllDigits(d)
    ensures ParseInt(d) == Some(DigitsValue(d) as int)
  {
    assert IsDigit(d[0]);
    TrimStartOfNonSpace(d);
    assert d[0] != '-' && d[0] != '+';
    assert ParseInt(d) == ParseDigits(d);
    DigitPrefixOfDigits(d);
  }

  /** A minus sign before any text negates what the text reads as. */
  lemma ParseIntOfMinus(d: string)
    ensures ParseInt("-" + d) == Negate(ParseDigits(d))
  {
    var m := "-" + d;
    assert m[0] == '-' && m[1..] == d;
    TrimStartOfNonSpace(m);
  }

  /** A run of digits reads as its value. */
  lemma ParseDigitsOfDigits(d: string)
    requires |d| > 0 && AllDigits(d)
    ensures ParseDigits(d) == Some(DigitsValue(d) as int)
  {
    DigitPrefixOfDigits(d);
  }

  /** Text reading as `v` reads as `-v` behind a minus sign. */
  lemma ParseIntOfMinusValue(d: string, v: int)
    requires ParseDigits(d) == Some(v)
    ensures ParseInt("-" + d) == Some(-v)
  {
    var m := "-" + d;
    assert m[0] == '-' && m[1..] == d;
    TrimStartOfNonSpace(m);
    assert ParseInt(m) == Negate(ParseDigits(m[1..]));
  }

  /** `parseInt(String(n), 10) == n`: a number survives the trip through a form field. */
  lemma ParseIntRoundTrip(n: int)
    ensures ParseInt(IntToString(n)) == Some(n)
  {
    var m: nat := if n < 0 then -n else n;
    DigitsValueOfNatToString(m);
    if n < 0 {
      ParseDigitsOfDigits(NatToString(m));
      ParseIntOfMinusValue(NatToString(m), m);
      assert IntToString(n) == "-" + NatToString(m);
    } else {
      ParseIntOfDigits(NatToString(m));
    }
  }
}

=== FILE: onboarding_actions.dfy ===
/** The `completeOnboarding` server action: find or create the signed-in
    user's record, validate the form, and patch the profile onto the record. */
module OnboardingActions {
  import opened Common
  import opened UserStore
  import opened JsNumbers

  /** The submitted form; every field may be missing. */
  datatype FormData = FormData(name: Option<string>, monthOfBirth: Option<string>, yearOfBirth: Option<string>, goals: Option<seq<string>>)

  /** What the action ends in: a returned `{ error }`, the `/home` redirect,
      or an exception escaping the action (a failed query or creation). */
  datatype Result = ErrorResult(message: string) | RedirectHome | Crash

  datatype Outcome = Outcome(result: Result, store: Db)

  /** The validation: name, month and year truthy, and at least one goal. */
  function Complete(form: FormData): (ok: bool)
    // Every field must be present; an empty string counts as missing.
    ensures ok ==> form.name.Some? && form.monthOfBirth.Some? && form.yearOfBirth.Some? && form.goals.Some?
    ensures form.name == Some("") || form.monthOfBirth == Some("") || form.yearOfBirth == Some("") ==> !ok
    // An empty goal list fails; one goal is enough.
    ensures form.goals == Some([]) ==> !ok
    ensures (Truthy(form.name) && Truthy(form.monthOfBirth) && Truthy(form.yearOfBirth)
             && form.goals.Some? && |form.goals.value| >= 1) ==> ok
  {
    Truthy(form.name) && Truthy(form.monthOfBirth) && Truthy(form.yearOfBirth)
    && form.goals.Some? && |form.goals.value| > 0
  }

  /** The record created for a first-time user, already marked onboarded. */
  function NewUser(email: string, name: Option<string>): (r: UserRecord)
    ensures r.email == email && r.name == name && r.onboardingComplete == Some(true)
    ensures r.goals.None? && r.monthOfBirth.None? && r.yearOfBirth.None?
    // No billing or identity-provider field is set.
    ensures r.subscriptionStatus.None? && r.stripeCustomerId.None? && r.auth0Id.None?
    ensures r.cancelAtPeriodEnd.None? && r.currentPeriodEnd.None?
  {
    Blank(email).(name := name, onboardingComplete := Some(true))
  }

  /** The profile patch: name, the parsed month and year, the goals, and the
      onboarding flag; nothing else about the record changes. */
  function ProfilePatch(rec: UserRecord, form: FormData): (r: UserRecord)
    requires Complete(form)
    ensures r.name == form.name && r.goals == form.goals && r.onboardingComplete == Some(true)
    ensures r.monthOfBirth == ParseInt(form.monthOfBirth.value) && r.yearOfBirth == ParseInt(form.yearOfBirth.value)
    ensures r.(name := rec.name, monthOfBirth := rec.monthOfBirth, yearOfBirth := rec.yearOfBirth,
               goals := rec.goals, onboardingComplete := rec.onboardingComplete) == rec
  {
    rec.(name := form.name,
         monthOfBirth := ParseInt(form.monthOfBirth.value),
         yearOfBirth := ParseInt(form.yearOfBirth.value),
         goals := form.goals,
         onboardingComplete := Some(true))
  }

  /** Validation and the patch, for the record `id` that the lookup by `email` finds. */
  function ValidateAndPatch(email: string, id: Id, form: FormData, s: Db, f: Faults): (r: Outcome)
    requires Find(s, ByEmail(email)) == Some(id)
    ensures !Complete(form) ==> r == Outcome(ErrorResult("Missing required fields"), s)
    ensures Complete(form) && f.patchFails ==> r == Outcome(ErrorResult("Failed to save data to Sanity."), s)
    ensures Complete(form) && !f.patchFails ==>
              && r.result == RedirectHome && HoldsProfile(r.store, email, form)
              && r.store.docs.Keys == s.docs.Keys
              && r.store.docs[id] == ProfilePatch(s.docs[id], form)
              && forall j :: j in s.docs && j != id ==> r.store.docs[j] == s.docs[j]
  {
    if !Complete(form) then Outcome(ErrorResult("Missing required fields"), s)
    else if f.patchFails then Outcome(ErrorResult("Failed to save data to Sanity."), s)
    else
      var s1 := Put(s, id, ProfilePatch(s.docs[id], form));
      FindStable(s, s1, ByEmail(email));
      Outcome(RedirectHome, s1)
  }

  /** The record found by `email` carries the submitted profile and the onboarding flag. */
  predicate HoldsProfile(st: Db, email: string, form: FormData)
  {
    && form.monthOfBirth.Some? && form.yearOfBirth.Some?
    && Find(st, ByEmail(email)).Some?
    && var rec := st.docs[Find(st, ByEmail(email)).value];
       && rec.name == form.name && rec.goals == form.goals
       && rec.monthOfBirth == ParseInt(form.monthOfBirth.value)
       && rec.yearOfBirth == ParseInt(form.yearOfBirth.value)
       && rec.onboardingComplete == Some(true)
  }

  /** The action reaches the validation: a signed-in user whose record is
      found and not yet onboarded, or is missing and created without fault. */
  predicate ToOnboard(email: Option<string>, s: Db, f: Faults)
  {
    && Truthy(email) && !f.readFails
    && match Find(s, ByEmail(email.value))
       case None => !f.createFails
       case Some(id) => !TruthyBool(s.docs[id].onboardingComplete)
  }

  /** The action; `email` and `sessionName` come from the session. */
  function CompleteOnboarding(email: Option<string>, sessionName: Option<string>, form: FormData, s: Db, f: Faults): (r: Outcome)
    // No session: an error result, and the store is not touched.
    ensures !Truthy(email) ==> r == Outcome(ErrorResult("Unauthorized: Session failed."), s)
    // Already onboarded: straight home, no patch.
    ensures (Truthy(email) && !f.readFails && Find(s, ByEmail(email.value)).Some?
             && TruthyBool(s.docs[Find(s, ByEmail(email.value)).value].onboardingComplete))
              ==> r == Outcome(RedirectHome, s)
    // A first-time user is created, marked onboarded, before the validation runs.
    ensures Truthy(email) && !f.readFails && !f.createFails && Find(s, ByEmail(email.value)).None? ==>
              && r.store.docs.Keys == s.docs.Keys + {s.next}
              && r.store.docs[s.next].email == email.value
              && r.store.docs[s.next].onboardingComplete == Some(true)
    // The created record is exactly the first-time record, named from the form
    // or else from the session; a rejected form leaves it as created.
    ensures Truthy(email) && !f.readFails && !f.createFails && Find(s, ByEmail(email.value)).None? ==>
              var created := NewUser(email.value, OrElse(form.name, sessionName));
              && s.next in r.store.docs
              && (r.result.ErrorResult? ==> r.store.docs[s.next] == created)
              && (r.result == RedirectHome ==> Complete(form) && r.store.docs[s.next] == ProfilePatch(created, form))
    // Validation failure and patch failure return an error and write no profile.
    ensures r.result == ErrorResult("Missing required fields") ==> !Complete(form)
    ensures r.result.ErrorResult? ==> forall id :: id in s.docs ==> id in r.store.docs && r.store.docs[id] == s.docs[id]
    ensures r.result == Crash ==> r.store == s
    // Success: the record found or created carries the submitted profile.
    ensures r.result == RedirectHome && r.store != s ==>
              Truthy(email) && Complete(form) && HoldsProfile(r.store, email.value, form)
    // A failed query or creation escapes the action.
    ensures Truthy(email) && f.readFails ==> r == Outcome(Crash, s)
    ensures Truthy(email) && !f.readFails && Find(s, ByEmail(email.value)).None? && f.createFails ==> r == Outcome(Crash, s)
    // Only the caller's own record is written: every other record is kept,
    // and at most the one new record is added.
    ensures Truthy(email) ==>
              forall j :: j in s.docs && Some(j) != Find(s, ByEmail(email.value)) ==>
                j in r.store.docs && r.store.docs[j] == s.docs[j]
    ensures r.store.docs.Keys <= s.docs.Keys + {s.next}
    // A user still to be onboarded, found or just created: the form decides.
    ensures ToOnboard(email, s, f) ==>
              && (!Complete(form) ==> r.result == ErrorResult("Missing required fields"))
              && (Complete(form) && f.patchFails ==> r.result == ErrorResult("Failed to save data to Sanity."))
              && (Complete(form) && !f.patchFails ==> r.result == RedirectHome && HoldsProfile(r.store, email.value, form))
    // On success the caller's own record changes only by the profile patch.
    ensures ToOnboard(email, s, f) && Complete(form) && !f.patchFails ==>
              match Find(s, ByEmail(email.value))
              case Some(id) => id in r.store.docs && r.store.docs[id] == ProfilePatch(s.docs[id], form)
              case None => s.next in r.store.docs
                           && r.store.docs[s.next] == ProfilePatch(NewUser(email.value, OrElse(form.name, sessionName)), form)
  {
    if !Truthy(email) then Outcome(ErrorResult("Unauthorized: Session failed."), s)
    else if f.readFails then Outcome(Crash, s)
    else
      match Find(s, ByEmail(email.value))
      case Some(id) =>
        if TruthyBool(s.docs[id].onboardingComplete) then Outcome(RedirectHome, s)
        else ValidateAndPatch(email.value, id, form, s, f)
      case None =>
        if f.createFails then Outcome(Crash, s)
        else
          var (s1, id) := Create(s, NewUser(email.value, OrElse(form.name, sessionName)));
          FindAfterCreate(s, NewUser(email.value, OrElse(form.name, sessionName)), ByEmail(email.value));
          ValidateAndPatch(email.value, id, form, s1, f)
  }

  /** Because the record is created already marked onboarded, a first
      submission that fails validation leaves a record without a profile, and
      every later submission is sent home without writing one. */
  lemma RejectedFirstSubmissionIsFinal(email: string, sessionName: Option<string>, form1: FormData, form2: FormData, s: Db)
    requires email != "" && Find(s, ByEmail(email)).None? && !Complete(form1)
    ensures var first := CompleteOnboarding(Some(email), sessionName, form1, s, NoFaults);
            && first.result == ErrorResult("Missing required fields")
            && first.store.docs[s.next].goals.None?
            && CompleteOnboarding(Some(email), sessionName, form2, first.store, NoFaults) == Outcome(RedirectHome, first.store)
  {
    var rec := NewUser(email, OrElse(form1.name, sessionName));
    FindAfterCreate(s, rec, ByEmail(email));
  }
}

=== FILE: onboarding_page.dfy ===
/** The onboarding form's client-side logic: the goal toggle, the birth year
    and month tables, and when the submit button is disabled. */
module OnboardingPage {
  import opened Common
  import opened JsNumbers
  import OnboardingActions

  /** The values of the goal buttons, in display order. */
  const GoalValues: seq<string> := ["peace", "strength", "flexibility", "sleep", "beginner"]

  /** `list.filter((x) => x !== g)`. */
  function Remove(list: seq<string>, g: string): (r: seq<string>)
    ensures g !in r
    ensures forall x :: x != g ==> (x in r <==> x in list)
    ensures |r| <= |list|
  {
    if |list| == 0 then []
    else (if list[0] == g then [] else [list[0]]) + Remove(list[1..], g)
  }

  /** `handleGoalClick`: drop every occurrence of a selected goal, append an unselected one. */
  function ToggleGoal(selected: seq<string>, g: string): (r: seq<string>)
    ensures g in r <==> g !in selected
    ensures forall x :: x != g ==> (x in r <==> x in selected)
    ensures g !in selected ==> |r| == |selected| + 1 && r[|selected|] == g
  {
    if g in selected then Remove(selected, g) else selected + [g]
  }

  lemma {:induction false} RemoveAbsent(list: seq<string>, g: string)
    requires g !in list
    ensures Remove(list, g) == list
  {
    if |list| > 0 {
      RemoveAbsent(list[1..], g);
    }
  }

  lemma {:induction false} RemoveConcat(a: seq<string>, b: seq<string>, g: string)
    ensures Remove(a + b, g) == Remove(a, g) + Remove(b, g)
  {
    if |a| > 0 {
      assert (a + b)[1..] == a[1..] + b;
      RemoveConcat(a[1..], b, g);
    } else {
      assert a + b == b;
    }
  }

  /** Toggling never disturbs the other goals: with `g` filtered out, the list
      before and after are the same, order included. */
  lemma ToggleKeepsOthers(selected: seq<string>, g: string)
    ensures Remove(ToggleGoal(selected, g), g) == Remove(selected, g)
  {
    if g in selected {
      RemoveAbsent(Remove(selected, g), g);
    } else {
      RemoveConcat(selected, [g], g);
      assert Remove([g], g) == [];
    }
  }

  /** Selecting a goal and deselecting it again restores the list. */
  lemma ToggleTwiceRestores(selected: seq<string>, g: string)
    requires g !in selected
    ensures ToggleGoal(ToggleGoal(selected, g), g) == selected
  {
    RemoveConcat(selected, [g], g);
    assert Remove([g], g) == [];
    RemoveAbsent(selected, g);
  }

  predicate NoDuplicates(list: seq<string>)
  {
    forall i, j :: 0 <= i < j < |list| ==> list[i] != list[j]
  }

  lemma {:induction false} RemoveKeepsNoDuplicates(list: seq<string>, g: string)
    requires NoDuplicates(list)
    ensures NoDuplicates(Remove(list, g))
  {
    if |list| > 0 {
      RemoveKeepsNoDuplicates(list[1..], g);
      assert list[0] !in list[1..];
    }
  }

  /** Toggling keeps a list of distinct goals distinct. */
  lemma ToggleKeepsNoDuplicates(selected: seq<string>, g: string)
    requires NoDuplicates(selected)
    ensures NoDuplicates(ToggleGoal(selected, g))
  {
    if g in selected {
      RemoveKeepsNoDuplicates(selected, g);
    }
  }

  /** The birth-year options: a hundred years, newest first, starting eighteen
      years before the current one. */
  function Years(currentYear: int): (ys: seq<int>)
    ensures |ys| == 100 && ys[0] == currentYear - 18
    ensures forall i :: 0 <= i < 99 ==> ys[i + 1] == ys[i] - 1
    ensures forall i, j :: 0 <= i < j < 100 ==> ys[i] > ys[j]
  {
    seq(100, i => currentYear - 18 - i)
  }

  /** Every year offered makes the user between 18 and 117 in the current year. */
  lemma YearsAreAdult(currentYear: int, y: int)
    requires y in Years(currentYear)
    ensures 18 <= currentYear - y <= 117
  {
    var ys := Years(currentYear);
    var i :| 0 <= i < 100 && ys[i] == y;
  }

  datatype MonthOption = MonthOption(name: string, value: int)

  const Months: seq<MonthOption> := [
    MonthOption("January", 1), MonthOption("February", 2), MonthOption("March", 3),
    MonthOption("April", 4), MonthOption("May", 5), MonthOption("June", 6),
    MonthOption("July", 7), MonthOption("August", 8), MonthOption("September", 9),
    MonthOption("October", 10), MonthOption("November", 11), MonthOption("December", 12)
  ]

  /** Twelve months valued 1 to 12 in calendar order. */
  lemma MonthsInOrder()
    ensures |Months| == 12
    ensures forall i :: 0 <= i < 12 ==> Months[i].value == i + 1
  {
  }

  /** `disabled={loading || selectedGoals.length === 0}`. */
  function SubmitDisabled(loading: bool, selected: seq<string>): (disabled: bool)
    // The button is locked while a submission is in flight.
    ensures loading ==> disabled
    // An enabled button means at least one goal is selected.
    ensures !disabled ==> |selected| >= 1
    ensures !loading && |selected| >= 1 ==> !disabled
  {
    loading || |selected| == 0
  }

  /** The value an option puts in the form, read back on the server, is the
      option's number: `parseInt(String(v), 10) == v` for every month and year. */
  lemma SelectedDateRoundTrip(currentYear: int, m: int, y: int)
    requires 0 <= m < |Months| && 0 <= y < |Years(currentYear)|
    ensures ParseInt(IntToString(Months[m].value)) == Some(Months[m].value)
    ensures ParseInt(IntToString(Years(currentYear)[y])) == Some(Years(currentYear)[y])
  {
    ParseIntRoundTrip(Months[m].value);
    ParseIntRoundTrip(Years(currentYear)[y]);
  }

  /** The form's `loading` flag and displayed error after `handleSubmit` awaited the action. */
  datatype FormState = FormState(loading: bool, error: Option<string>)

  const UnexpectedError := "An unexpected error occurred. Please try again."

  /** `handleSubmit` after the action: a returned non-empty error is shown and
      the form unlocks; the redirect is left to the browser with the form still
      loading; any other exception shows a generic message and unlocks. */
  function AfterSubmit(result: OnboardingActions.Result): (st: FormState)
    ensures result.ErrorResult? && result.message != "" ==> st == FormState(false, Some(result.message))
    ensures result.Crash? ==> st == FormState(false, Some(UnexpectedError))
    // The form stays locked only while the browser follows the redirect, or
    // when the returned error is empty and so counts as no error.
    ensures st.loading <==> result.RedirectHome? || result == OnboardingActions.ErrorResult("")
    ensures st.loading ==> st.error.None?
  {
    match result
    case ErrorResult(m) => if m != "" then FormState(false, Some(m)) else FormState(true, None)
    case RedirectHome => FormState(true, None)
    case Crash => FormState(false, Some(UnexpectedError))
  }
}

=== FILE: sanity_client.dfy ===
/** `sanityFetch`: every read goes out uncached, with cache tags derived from
    the tree and user ids among the query parameters. */
module SanityClient {
  import opened Common

  datatype FetchParams = FetchParams(treeId: Option<string>, userId: Option<string>)

  /** The fixed options of every fetch, plus the tag list. */
  datatype FetchOptions = FetchOptions(perspective: string, useCdn: bool, cache: string, revalidate: int, tags: seq<string>)

  const TreePrefix := "tree-"
  const UserPrefix := "user-"

  function Tags(params: FetchParams): (tags: seq<string>)
    ensures |tags| <= 2
    // A tree tag exactly when the tree id is truthy, and then first.
    ensures (exists i :: 0 <= i < |tags| && TreePrefix <= tags[i]) <==> Truthy(params.treeId)
    ensures Truthy(params.treeId) ==> tags[0] == TreePrefix + params.treeId.value
    // A user tag exactly when the user id is truthy, and then last.
    ensures (exists i :: 0 <= i < |tags| && UserPrefix <= tags[i]) <==> Truthy(params.userId)
    ensures Truthy(params.userId) ==> tags[|tags| - 1] == UserPrefix + params.userId.value
    ensures |tags| == (if Truthy(params.treeId) then 1 else 0) + (if Truthy(params.userId) then 1 else 0)
  {
    var tree := if Truthy(params.treeId) then [TreePrefix + params.treeId.value] else [];
    var user := if Truthy(params.userId) then [UserPrefix + params.userId.value] else [];
    assert TreePrefix[0] == 't' && UserPrefix[0] == 'u';
    assert forall t :: t in tree ==> TreePrefix <= t && !(UserPrefix <= t);
    assert forall t :: t in user ==> UserPrefix <= t && !(TreePrefix <= t);
    var tags := tree + user;
    assert Truthy(params.treeId) ==> TreePrefix <= tags[0];
    assert Truthy(params.userId) ==> UserPrefix <= tags[|tags| - 1];
    tags
  }

  function Options(params: FetchParams): (o: FetchOptions)
    ensures o.perspective == "published" && !o.useCdn && o.cache == "no-store" && o.revalidate == 0
    ensures o.tags == Tags(params)
  {
    FetchOptions("published", false, "no-store", 0, Tags(params))
  }

  /** Which id a tag names: the inverse of tag construction. */
  datatype TagOwner = TreeTag(treeId: string) | UserTag(userId: string) | Foreign

  function TagOwnerOf(tag: string): TagOwner
  {
    if TreePrefix <= tag then TreeTag(tag[|TreePrefix|..])
    else if UserPrefix <= tag then UserTag(tag[|UserPrefix|..])
    else Foreign
  }

  /** Every tag names back the id it was built from. */
  lemma TagsRoundTrip(params: FetchParams)
    ensures Truthy(params.treeId) ==> TagOwnerOf(Tags(params)[0]) == TreeTag(params.treeId.value)
    ensures Truthy(params.userId) ==> TagOwnerOf(Tags(params)[|Tags(params)| - 1]) == UserTag(params.userId.value)
  {
    if Truthy(params.userId) {
      var t := UserPrefix + params.userId.value;
      assert t[..5] == UserPrefix;
      assert t[0] == 'u';
      assert t[5..] == params.userId.value;
    }
    if Truthy(params.treeId) {
      var t := TreePrefix + params.treeId.value;
      assert t[..5] == TreePrefix;
      assert t[5..] == params.treeId.value;
    }
  }
}

=== FILE: store.dfy ===
/** The user document store: one record per user, addressed by a store-assigned
    id and looked up by email, by billing customer id or by identity-provider id. */
module UserStore {
  import opened Common

  type Id = nat

  /** A user document. A field the application never wrote is `None`. */
  datatype UserRecord = UserRecord(
    email: string,
    name: Option<string>,
    auth0Id: Option<string>,
    stripeCustomerId: Option<string>,
    subscriptionStatus: Option<string>,
    cancelAtPeriodEnd: Option<bool>,
    currentPeriodEnd: Option<int>,     // an absolute instant, in milliseconds
    onboardingComplete: Option<bool>,
    monthOfBirth: Option<int>,         // `None` also stands for a stored NaN
    yearOfBirth: Option<int>,
    goals: Option<seq<string>>
  )

  /** A record with only an email set; creations fill in the rest. */
  function Blank(email: string): (r: UserRecord)
    ensures r.email == email && r.stripeCustomerId.None? && r.auth0Id.None?
  {
    UserRecord(email, None, None, None, None, None, None, None, None, None, None)
  }

  /** The documents, plus the id the next creation will receive. */
  datatype Store = Store(docs: map<Id, UserRecord>, next: Id)

  predicate IdsBelowNext(s: Store)
  {
    forall id :: id in s.docs ==> id < s.next
  }

  /** A store whose ids were all handed out by `Create`. */
  type Db = s: Store | IdsBelowNext(s) witness Store(map[], 0)

  /** Which calls to the store throw in one request: a query, a `create`, a `patch(...).commit()`. */
  datatype Faults = Faults(readFails: bool, createFails: bool, patchFails: bool)

  const NoFaults := Faults(false, false, false)

  /** The filter of a `*[_type == "user" && <field> == $param][0]` query. */
  datatype Key = ByEmail(email: string) | ByStripeCustomer(customerId: string) | ByAuth0Id(auth0Id: string)

  predicate Matches(r: UserRecord, k: Key)
  {
    match k
    case ByEmail(e) => r.email == e
    case ByStripeCustomer(c) => r.stripeCustomerId == Some(c)
    case ByAuth0Id(a) => r.auth0Id == Some(a)
  }

  /** Scan ids `i .. n-1` for the first document matching `k`. */
  function FindFrom(docs: map<Id, UserRecord>, k: Key, i: nat, n: nat): (r: Option<Id>)
    decreases n - i
    ensures r.Some? ==> i <= r.value < n && r.value in docs && Matches(docs[r.value], k)
    ensures r.Some? ==> forall j :: i <= j < r.value && j in docs ==> !Matches(docs[j], k)
    ensures r.None? ==> forall j :: i <= j < n && j in docs ==> !Matches(docs[j], k)
  {
    if i >= n then None
    else if i in docs && Matches(docs[i], k) then Some(i)
    else FindFrom(docs, k, i + 1, n)
  }

  /** The `[0]` of a query: the lowest-id document that matches, if any. */
  function Find(s: Db, k: Key): (r: Option<Id>)
    ensures r.Some? ==> r.value in s.docs && Matches(s.docs[r.value], k)
    ensures r.Some? ==> forall j :: j in s.docs && j < r.value ==> !Matches(s.docs[j], k)
    ensures r.None? <==> forall id :: id in s.docs ==> !Matches(s.docs[id], k)
  {
    FindFrom(s.docs, k, 0, s.next)
  }

  /** `client.create(doc)`: the new document gets a fresh id. */
  function Create(s: Db, rec: UserRecord): (r: (Db, Id))
    ensures r.1 !in s.docs
    ensures r.0.docs == s.docs[r.1 := rec]
  {
    (Store(s.docs[s.next := rec], s.next + 1), s.next)
  }

  /** `client.patch(id).set(...).commit()` on an existing document. */
  function Put(s: Db, id: Id, rec: UserRecord): (r: Db)
    requires id in s.docs
    ensures r.docs == s.docs[id := rec]
    ensures r.docs.Keys == s.docs.Keys && r.next == s.next
  {
    Store(s.docs[id := rec], s.next)
  }

  /** Scanning two document maps that agree on which ids exist and on which
      of them match `k` gives the same answer. */
  lemma {:induction false} FindFromSameMatches(d1: map<Id, UserRecord>, d2: map<Id, UserRecord>, k: Key, i: nat, n: nat)
    requires d1.Keys == d2.Keys
    requires forall id :: id in d1 ==> (Matches(d1[id], k) <==> Matches(d2[id], k))
    ensures FindFrom(d1, k, i, n) == FindFrom(d2, k, i, n)
    decreases n - i
  {
    if i < n {
      FindFromSameMatches(d1, d2, k, i + 1, n);
    }
  }

  /** A patch that keeps every document's match status keeps every lookup's answer. */
  lemma FindStable(s1: Db, s2: Db, k: Key)
    requires s1.docs.Keys == s2.docs.Keys && s1.next == s2.next
    requires forall id :: id in s1.docs ==> (Matches(s1.docs[id], k) <==> Matches(s2.docs[id], k))
    ensures Find(s1, k) == Find(s2, k)
  {
    FindFromSameMatches(s1.docs, s2.docs, k, 0, s1.next);
  }

  /** After creating a record, a lookup that found nothing before finds exactly it. */
  lemma FindAfterCreate(s: Db, rec: UserRecord, k: Key)
    requires Find(s, k).None? && Matches(rec, k)
    ensures Find(Create(s, rec).0, k) == Some(Create(s, rec).1)
  {
    var (s', id) := Create(s, rec);
    var r := Find(s', k);
    assert id in s'.docs && Matches(s'.docs[id], k);
    assert r.Some?;
  }
}

=== FILE: webhook.dfy ===
/** The Stripe webhook: a verified billing event is reduced to a
    (customer id, status, period end, cancellation flag) tuple, the user owning
    that customer id is looked up, and the tuple is written onto that user. The
    provider's status is written exactly as received: there is no mapping step. */
module StripeWebhook {
  import opened Common
  import opened UserStore

  /** A Stripe subscription object, as carried by an event or returned by
      `subscriptions.retrieve`. */
  datatype Subscription = Subscription(
    id: string,
    customer: Option<string>,
    status: Option<string>,
    currentPeriodEnd: Option<int>,   // `current_period_end`, seconds since the epoch
    cancelAtPeriodEnd: bool,         // `cancel_at_period_end`
    cancelAt: Nullable<int>          // `cancel_at`
  )

  /** `session.subscription`: null, an id, or an expanded subscription object. */
  datatype SubscriptionRef = NoSubscription | SubscriptionId(id: string) | Expanded(sub: Subscription)

  datatype CheckoutSession = CheckoutSession(mode: Option<string>, customer: Option<string>, subscription: SubscriptionRef)

  datatype Invoice = Invoice(subscription: Option<string>, customer: Option<string>)

  /** A verified event; `Unhandled` stands for every other event type. */
  datatype Event =
    | CheckoutSessionCompleted(session: CheckoutSession)
    | InvoicePaymentSucceeded(invoice: Invoice)
    | SubscriptionCreated(sub: Subscription)
    | SubscriptionUpdated(sub: Subscription)
    | SubscriptionDeleted(sub: Subscription)
    | Unhandled(eventType: string)

  /** The outcome of `constructEvent`: the signature check itself is opaque. */
  datatype Verification = Verified(event: Event) | Rejected(message: string)

  /** The four variables the event switch fills in. */
  datatype Tuple = Tuple(stripeId: Option<string>, status: Option<string>, periodEnd: Option<int>, cancelAtPeriodEnd: bool)

  /** The values the handler starts from: empty id and status, no period end, not cancelling. */
  const Initial := Tuple(Some(""), Some(""), None, false)

  /** What the switch produced: a default-branch acknowledgement, an exception, or a tuple. */
  datatype Classification = Ignored | Thrown | Extracted(tuple: Tuple)

  /** `cancel_at_period_end || cancel_at !== null`. */
  function CancelPending(sub: Subscription): (pending: bool)
    // An absent `cancel_at` is not null, so it counts as a scheduled cancellation.
    ensures sub.cancelAt.Undefined? ==> pending
    ensures sub.cancelAt.Present? ==> pending
    ensures sub.cancelAtPeriodEnd ==> pending
    // Only an explicit null with the flag unset means the subscription renews.
    ensures !pending <==> sub.cancelAt == Null && !sub.cancelAtPeriodEnd
  {
    sub.cancelAtPeriodEnd || !sub.cancelAt.Null?
  }

  function FromSubscription(customer: Option<string>, sub: Subscription): Tuple
  {
    Tuple(customer, sub.status, sub.currentPeriodEnd, CancelPending(sub))
  }

  /** The id passed to `subscriptions.retrieve` for a checkout session; `None`
      when `session.subscription` is null and reading its `.id` throws. */
  function RefId(ref: SubscriptionRef): Option<string>
  {
    match ref
    case NoSubscription => None
    case SubscriptionId(id) => Some(id)
    case Expanded(sub) => Some(sub.id)
  }

  /** Whether the tuple is worth a store lookup: status and customer id both non-empty. */
  predicate Actionable(t: Tuple)
  {
    Truthy(t.status) && Truthy(t.stripeId)
  }

  /** The event switch. `subs` plays the part of `subscriptions.retrieve`: an id
      outside it makes the call throw. */
  function Classify(e: Event, subs: map<string, Subscription>): (c: Classification)
    ensures c.Ignored? <==> e.Unhandled?
    ensures (e.SubscriptionCreated? || e.SubscriptionUpdated? || e.SubscriptionDeleted?) ==>
              c == Extracted(Tuple(e.sub.customer, e.sub.status, e.sub.currentPeriodEnd,
                                   e.sub.cancelAtPeriodEnd || !e.sub.cancelAt.Null?))
    ensures e.CheckoutSessionCompleted? ==>
              var ses := e.session;
              if ses.mode == Some("subscription") && Truthy(ses.customer) then
                var id := RefId(ses.subscription);
                if id.Some? && id.value in subs
                then c == Extracted(FromSubscription(ses.customer, subs[id.value]))
                else c == Thrown
              else c == Extracted(Initial)
    ensures e.InvoicePaymentSucceeded? ==>
              var inv := e.invoice;
              if Truthy(inv.subscription) && Truthy(inv.customer) then
                if inv.subscription.value in subs
                then c == Extracted(FromSubscription(inv.customer, subs[inv.subscription.value]))
                else c == Thrown
              else c == Extracted(Initial)
  {
    match e
    case CheckoutSessionCompleted(ses) =>
      if ses.mode == Some("subscription") && Truthy(ses.customer) then
        var id := RefId(ses.subscription);
        if id.Some? && id.value in subs then Extracted(FromSubscription(ses.customer, subs[id.value]))
        else Thrown
      else Extracted(Initial)
    case InvoicePaymentSucceeded(inv) =>
      if Truthy(inv.subscription) && Truthy(inv.customer) then
        if inv.subscription.value in subs then Extracted(FromSubscription(inv.customer, subs[inv.subscription.value]))
        else Thrown
      else Extracted(Initial)
    case SubscriptionCreated(sub) => Extracted(FromSubscription(sub.customer, sub))
    case SubscriptionUpdated(sub) => Extracted(FromSubscription(sub.customer, sub))
    case SubscriptionDeleted(sub) => Extracted(FromSubscription(sub.customer, sub))
    case Unhandled(_) => Ignored
  }

  /** The largest magnitude, in milliseconds, a JavaScript `Date` can hold. */
  const MaxTimeMs := 8_640_000_000_000_000

  /** The result of the handler's `toISOString`: null, an instant, or a `RangeError` thrown. */
  datatype IsoTime = NullTime | Instant(ms: int) | RangeError

  /** `toISOString(timestamp)`: null for a falsy timestamp; otherwise the instant
      `timestamp * 1000` milliseconds after the epoch, which `Date` rejects with
      a `RangeError` when it lies beyond its range. */
  function ToISOString(timestamp: Option<int>): (r: IsoTime)
    ensures r.NullTime? <==> !TruthyInt(timestamp)
    ensures r.Instant? ==> r.ms / 1000 == timestamp.value && r.ms % 1000 == 0
    ensures r.Instant? ==> -MaxTimeMs <= r.ms <= MaxTimeMs
    ensures r.RangeError? <==> TruthyInt(timestamp) && !(-MaxTimeMs <= timestamp.value * 1000 <= MaxTimeMs)
  {
    if !TruthyInt(timestamp) then NullTime
    else
      var ms := timestamp.value * 1000;
      if -MaxTimeMs <= ms <= MaxTimeMs then Instant(ms) else RangeError
  }

  /** The `set` patch: status and cancellation flag always, the period end only
      when one is given; every other field is left as it was. */
  function SetSubscriptionFields(rec: UserRecord, status: string, cancel: bool, periodEnd: Option<int>): (r: UserRecord)
    ensures r.subscriptionStatus == Some(status)
    ensures r.cancelAtPeriodEnd == Some(cancel)
    ensures periodEnd.Some? ==> r.currentPeriodEnd == periodEnd
    ensures periodEnd.None? ==> r.currentPeriodEnd == rec.currentPeriodEnd
    ensures r.(subscriptionStatus := rec.subscriptionStatus,
               cancelAtPeriodEnd := rec.cancelAtPeriodEnd,
               currentPeriodEnd := rec.currentPeriodEnd) == rec
  {
    rec.(subscriptionStatus := Some(status),
         cancelAtPeriodEnd := Some(cancel),
         currentPeriodEnd := if periodEnd.Some? then periodEnd else rec.currentPeriodEnd)
  }

  /** What a delivery did: the response, the store afterwards, and which record it wrote. */
  datatype Outcome = Outcome(response: Response, store: Db, written: Option<Id>)

  const ServerError := Response(500, Error("Internal server error"))

  /** The period end the patch carries: the instant when the timestamp is truthy. */
  function PatchedPeriodEnd(iso: IsoTime): Option<int>
  {
    if iso.Instant? then Some(iso.ms) else None
  }

  /** Look up the owner of `t.stripeId` and write `t` onto it. */
  function Reconcile(t: Tuple, s: Db, f: Faults): (r: Outcome)
    requires Actionable(t)
  {
    if f.readFails then Outcome(ServerError, s, None)
    else
      match Find(s, ByStripeCustomer(t.stripeId.value))
      case None => Outcome(Ok(Received), s, None)
      case Some(id) =>
        var iso := ToISOString(t.periodEnd);
        if iso.RangeError? || f.patchFails then Outcome(ServerError, s, None)
        else
          var rec := SetSubscriptionFields(s.docs[id], t.status.value, t.cancelAtPeriodEnd, PatchedPeriodEnd(iso));
          Outcome(Ok(Received), Put(s, id, rec), Some(id))
  }

  /** Whether a delivery of `v` against store `s` reaches the write. */
  predicate Writes(v: Verification, subs: map<string, Subscription>, s: Db, f: Faults)
  {
    && v.Verified?
    && Classify(v.event, subs).Extracted?
    && var t := Classify(v.event, subs).tuple;
    && Actionable(t)
    && !f.readFails
    && Find(s, ByStripeCustomer(t.stripeId.value)).Some?
    && !ToISOString(t.periodEnd).RangeError?
    && !f.patchFails
  }

  /** The `POST` handler. */
  function Post(v: Verification, subs: map<string, Subscription>, s: Db, f: Faults): (r: Outcome)
    // A failed signature check answers 400 and nothing else happens.
    ensures v.Rejected? ==> r == Outcome(Response(400, Error("Webhook Error: " + v.message)), s, None)
    // An event type outside the five handled ones is acknowledged without a write.
    ensures v.Verified? && v.event.Unhandled? ==> r == Outcome(Ok(Received), s, None)
    // A delivery with an empty status or customer id, or whose customer id no
    // record carries, is acknowledged without a write and without a retry.
    ensures v.Verified? && Classify(v.event, subs).Extracted? ==>
              var t := Classify(v.event, subs).tuple;
              (!Actionable(t) || (!f.readFails && Find(s, ByStripeCustomer(t.stripeId.value)).None?))
                ==> r == Outcome(Ok(Received), s, None)
    // Anything thrown after verification answers 500 without a write: a failed
    // retrieval of the subscription, a failed lookup, an out-of-range period
    // end, a failed patch.
    ensures v.Verified? && Classify(v.event, subs).Thrown? ==> r == Outcome(ServerError, s, None)
    ensures v.Verified? && Classify(v.event, subs).Extracted? ==>
              var t := Classify(v.event, subs).tuple;
              Actionable(t) ==>
                && (f.readFails ==> r == Outcome(ServerError, s, None))
                && ((!f.readFails && Find(s, ByStripeCustomer(t.stripeId.value)).Some?
                     && (ToISOString(t.periodEnd).RangeError? || f.patchFails))
                    ==> r == Outcome(ServerError, s, None))
    ensures r.response.status == 500 ==> r.store == s && r.written.None?
    ensures r.response.status in {200, 400, 500}
    ensures r.written.None? ==> r.store == s
    ensures r.written.Some? <==> Writes(v, subs, s, f)
    // The write: the record owning the customer id gets the raw status.
    ensures r.written.Some? ==>
              var t := Classify(v.event, subs).tuple;
              var id := r.written.value;
              && r.response == Ok(Received)
              && id in s.docs
              && s.docs[id].stripeCustomerId == t.stripeId
              && r.store == Put(s, id, SetSubscriptionFields(s.docs[id], t.status.value, t.cancelAtPeriodEnd,
                                                             PatchedPeriodEnd(ToISOString(t.periodEnd))))
  {
    match v
    case Rejected(m) => Outcome(Response(400, Error("Webhook Error: " + m)), s, None)
    case Verified(e) =>
      match Classify(e, subs)
      case Ignored => Outcome(Ok(Received), s, None)
      case Thrown => Outcome(ServerError, s, None)
      case Extracted(t) =>
        if !Actionable(t) then Outcome(Ok(Received), s, None)
        else Reconcile(t, s, f)
  }

  /** A checkout session leads to a write only in subscription mode with a
      customer, and the tuple then names that customer. */
  lemma CheckoutActionableOnlyForSubscriptions(ses: CheckoutSession, subs: map<string, Subscription>)
    requires Classify(CheckoutSessionCompleted(ses), subs).Extracted?
    requires Actionable(Classify(CheckoutSessionCompleted(ses), subs).tuple)
    ensures ses.mode == Some("subscription") && Truthy(ses.customer)
    ensures Classify(CheckoutSessionCompleted(ses), subs).tuple.stripeId == ses.customer
  {
  }

  /** Whether the session carries the subscription's id or the expanded object
      makes no difference to the classification. */
  lemma SubscriptionRefFormIrrelevant(mode: Option<string>, customer: Option<string>, sub: Subscription, subs: map<string, Subscription>)
    ensures Classify(CheckoutSessionCompleted(CheckoutSession(mode, customer, SubscriptionId(sub.id))), subs)
         == Classify(CheckoutSessionCompleted(CheckoutSession(mode, customer, Expanded(sub))), subs)
  {
  }

  /** The deletion event writes the status its payload carries, not a fixed
      "canceled": a payload reading "active" is written as "active". */
  lemma DeletionKeepsPayloadStatus(sub: Subscription, subs: map<string, Subscription>)
    ensures Classify(SubscriptionDeleted(sub), subs).tuple.status == sub.status
    ensures Classify(SubscriptionDeleted(sub), subs) == Classify(SubscriptionUpdated(sub), subs)
  {
  }

  /** Writing the same tuple twice leaves the record as writing it once. */
  lemma SetSubscriptionFieldsIdempotent(rec: UserRecord, status: string, cancel: bool, periodEnd: Option<int>)
    ensures var once := SetSubscriptionFields(rec, status, cancel, periodEnd);
            SetSubscriptionFields(once, status, cancel, periodEnd) == once
  {
  }

  /** A redelivered event leaves the store, the response and the written record
      exactly as the first delivery did. */
  lemma RedeliveryIdempotent(v: Verification, subs: map<string, Subscription>, s: Db, f: Faults)
    ensures var first := Post(v, subs, s, f);
            Post(v, subs, first.store, f) == first
  {
    var first := Post(v, subs, s, f);
    if first.written.Some? {
      var t := Classify(v.event, subs).tuple;
      var key := ByStripeCustomer(t.stripeId.value);
      FindStable(s, first.store, key);
      var id := first.written.value;
      SetSubscriptionFieldsIdempotent(s.docs[id], t.status.value, t.cancelAtPeriodEnd,
                                      PatchedPeriodEnd(ToISOString(t.periodEnd)));
    }
  }

  /** Two deliveries that both write, for the same customer: the record ends
      with the second delivery's status and cancellation flag whatever the
      first said, and its period end is the second's unless that one was falsy. */
  lemma LastWriteWins(v1: Verification, v2: Verification, subs: map<string, Subscription>, s: Db, f: Faults)
    requires Writes(v1, subs, s, f)
    requires Writes(v2, subs, Post(v1, subs, s, f).store, f)
    requires Classify(v1.event, subs).tuple.stripeId == Classify(v2.event, subs).tuple.stripeId
    ensures var r1 := Post(v1, subs, s, f);
            var r2 := Post(v2, subs, r1.store, f);
            var t1 := Classify(v1.event, subs).tuple;
            var t2 := Classify(v2.event, subs).tuple;
            var id := r1.written.value;
            && r2.written == r1.written
            && r2.store.docs[id].subscriptionStatus == t2.status
            && r2.store.docs[id].cancelAtPeriodEnd == Some(t2.cancelAtPeriodEnd)
            && r2.store.docs[id].currentPeriodEnd ==
                 (if TruthyInt(t2.periodEnd) then Some(t2.periodEnd.value * 1000)
                  else if TruthyInt(t1.periodEnd) then Some(t1.periodEnd.value * 1000)
                  else s.docs[id].currentPeriodEnd)
  {
    var r1 := Post(v1, subs, s, f);
    var t1 := Classify(v1.event, subs).tuple;
    FindStable(s, r1.store, ByStripeCustomer(t1.stripeId.value));
  }
}
